=== FILE: README.md ===
# Unicode highlighting and markdown hovers of the editor, in Dafny

This project models the editor contribution that highlights suspicious Unicode
characters (`UnicodeHighlighter`), and the two hover participants that explain
them. It proves properties of that model. The modelled parts are:

- **Option resolution.** Three settings may hold the `inUntrustedWorkspace` sentinel and resolve against workspace trust. When all three categories resolve to off, the feature is off. The classifier's options are built from the keys of the allowed-characters and allowed-locales objects; `_os` and `_vscode` are locale placeholders.
- **The controller.**
  - It reacts to events: model change, trust change, configuration change, content edit, view change, the update scheduler firing, a worker answer, and banner dismissal.
  - It has two strategies: a worker-backed whole-document highlighter with a model-version check, and an inline viewport highlighter.
  - It also keeps the banner and its sticky dismissal, the decoration-style cache, and `getDecorationInfo`.
- **The hovers.**
  - The markdown hover participant's synchronous parts come from line decorations (with the long-line notice) and its asynchronous parts from hover providers.
  - The Unicode hover participant explains each highlighted character and links to the exclude menu.
  - The renderer sorts parts by ordinal with a stable sort and renders the non-empty markdown strings.
- **The exclude menu.** Its entries are built in order, and each entry changes the settings in its own way.

Modules, one per file:

| file | module | what it holds |
|---|---|---|
| `wrappers.dfy` | `Wrappers` | `Option` |
| `editor_types.dfy` | `EditorTypes` | ranges and the `Range` constructor, markdown strings, hover messages, classifier results, reasons |
| `highlight_options.dfy` | `HighlightOptions` | `resolveOptions`, the off-gate, the classifier's options |
| `decoration_styles.dfy` | `DecorationStyles` | the `Decorations` style cache |
| `banner.dfy` | `Banner` | `_updateState` and the banner's category choice |
| `viewport_aggregation.dfy` | `ViewportAggregation` | the viewport fold over visible ranges, as written and as intended |
| `controller.dfy` | `Controller` | the controller, both strategies, the text model's decoration store, `getDecorationInfo` |
| `code_point_format.dfy` | `CodePointFormat` | hexadecimal printing, `formatCodePoint`, `renderCodePointAsInlineCode`, and a CommonMark code-span reader used to state what they produce |
| `exclude_options.dfy` | `ExcludeOptions` | the exclude menu, the two map merges, the effect of each menu entry |
| `markdown_hover.dfy` | `MarkdownHoverParticipant` | `MarkdownHover`, `isValidForHoverAnchor`, `computeSync`, `computeAsync`, `createLoadingMessage` |
| `hover_render.dfy` | `HoverRender` | the ordinal sort and the row rendering of `renderMarkdownHovers` |
| `unicode_hover.dfy` | `UnicodeHover` | `UnicodeHighlighterHoverParticipant.computeSync` and its texts |

Two behaviours of the program that a reader might not expect:

- **Viewport counts.** The viewport highlighter adds each running count to itself, not the visible range's count, so its counts stay 0 (see Findings).
- **Hover validity.** `isValidForHoverAnchor` compares the part's and the anchor's columns only. It does not test that the part's range contains the anchor's range.

## Model

| member | source | states |
|---|---|---|
| HighlightOptions.ResolveOptions | src/vs/editor/contrib/unicodeHighlighter/unicodeHighlighter.ts:204-214 | each trust-sensitive setting resolves to `!trusted` exactly when it holds the sentinel, else to its own value; the other settings are copied unchanged |
| HighlightOptions.TrustOnlyMatters | src/vs/editor/contrib/unicodeHighlighter/unicodeHighlighter.ts:204-214 | trust changes the resolved options iff some setting holds the sentinel; an untrusted workspace never highlights less than a trusted one |
| HighlightOptions.MapLocale | src/vs/editor/contrib/unicodeHighlighter/unicodeHighlighter.ts:166-174 | `_os` becomes the OS locale, `_vscode` the display language, any other key is kept |
| HighlightOptions.ToHighlighterOptions | src/vs/editor/contrib/unicodeHighlighter/unicodeHighlighter.ts:159-176 | flags are copied; a code point is allowed iff it is the first character of some key of the allowed-characters object (a key mapped to false counts too); a locale is allowed iff it is the mapped form of some key |
| DecorationStyles.CacheKeyInjective | src/vs/editor/contrib/unicodeHighlighter/unicodeHighlighter.ts:525-526 | the string key `${hideInComments}${hideInStrings}` tells all four flag pairs apart |
| DecorationStyles.GetDecoration | src/vs/editor/contrib/unicodeHighlighter/unicodeHighlighter.ts:525-548 | with a consistent cache, the returned style is the one for the flags; the cache stays consistent, gains exactly the flags' key, and keeps old entries |
| DecorationStyles.ValidCacheBounded | src/vs/editor/contrib/unicodeHighlighter/unicodeHighlighter.ts:520-548 | a consistent cache never holds more than four styles |
| DecorationStyles.GetDecorationIdempotent | src/vs/editor/contrib/unicodeHighlighter/unicodeHighlighter.ts:525-548 | asking again for the same flags returns the same style and leaves the cache unchanged |
| Banner.PickCategory | src/vs/editor/contrib/unicodeHighlighter/unicodeHighlighter.ts:94-113 | non-basic ASCII is named iff its count is the maximum; ambiguous iff it is maximal and non-basic ASCII is not; invisible otherwise; the named count is never below another; the `Unreachable` branch is dead |
| Banner.UpdateState | src/vs/editor/contrib/unicodeHighlighter/unicodeHighlighter.ts:88-133 | no state or no `hasMore` hides the banner; a dismissed banner is left as it is; otherwise the banner shows the dominant category |
| Banner.InvisibleDominates | src/vs/editor/contrib/unicodeHighlighter/unicodeHighlighter.ts:94-113 | counts ambiguous 5, invisible 12, non-basic ASCII 3 with `hasMore` name the invisible category |
| ViewportAggregation.AggregateAsWritten | src/vs/editor/contrib/unicodeHighlighter/unicodeHighlighter.ts:343-359 | the written fold concatenates every visible range's ranges in order and sets `hasMore` iff some range's result has it; its three counts stay 0 |
| ViewportAggregation.ViewportBannerNamesNonBasicAscii | src/vs/editor/contrib/unicodeHighlighter/unicodeHighlighter.ts:343-368 | so an overflowing viewport's banner always names non-basic ASCII |
| ViewportAggregation.AggregateSummedCounts | src/vs/editor/contrib/unicodeHighlighter/unicodeHighlighter.ts:343-359 | the intended fold has the same ranges and `hasMore` as the written one, and each count is the sum over the visible ranges |
| ViewportAggregation.SummedBannerPicksDominant | src/vs/editor/contrib/unicodeHighlighter/unicodeHighlighter.ts:343-368 | with summed counts, the banner names a category whose total is maximal |
| ViewportAggregation.SelfAdditionMisnamesCategory | src/vs/editor/contrib/unicodeHighlighter/unicodeHighlighter.ts:355-357 | one visible range with five invisible characters and `hasMore`: the written fold names non-basic ASCII, the intended one names invisible |
| Controller.DeltaDecorations | src/vs/editor/contrib/unicodeHighlighter/unicodeHighlighter.ts:266-269 | the old ids are removed; each new decoration gets a fresh id, in list order; earlier decorations are untouched |
| Controller.DecorationsFor | src/vs/editor/contrib/unicodeHighlighter/unicodeHighlighter.ts:262-264 | one decoration per range in range order; with a consistent cache, each carries the style for the flags and the cache stays consistent |
| Controller.NewDecorations | src/vs/editor/contrib/unicodeHighlighter/unicodeHighlighter.ts:258-265 | a result with `hasMore` yields no decoration and leaves the cache alone; otherwise there is one decoration per range, in order, with the highlighter's style |
| Controller.DeltaKeepsStyle | src/vs/editor/contrib/unicodeHighlighter/unicodeHighlighter.ts:262-269 | replacing decorations with uniformly styled ones keeps every live decoration styled the same |
| Controller.ApplyResult | src/vs/editor/contrib/unicodeHighlighter/unicodeHighlighter.ts:256-269 | the controller invariant is kept; the banner follows `_updateState`; the model gains exactly one decoration per range of the result, in range order and in the highlighter's style (none with `hasMore`), and exactly their fresh ids are live; strategy, options and pending calls are unchanged |
| Controller.ApplyResultReplaces | src/vs/editor/contrib/unicodeHighlighter/unicodeHighlighter.ts:256-269 | the new live ids are disjoint from the previous ones, one per range of the result, none with `hasMore` |
| Controller.ClearDecorations | src/vs/editor/contrib/unicodeHighlighter/unicodeHighlighter.ts:243-246 | every decoration of the highlighter is removed and the banner is untouched |
| Controller.DisposeHighlighter | src/vs/editor/contrib/unicodeHighlighter/unicodeHighlighter.ts:237-240 | after disposal there is no highlighter and no live decoration; everything else is kept |
| Controller.UpdateHighlighter | src/vs/editor/contrib/unicodeHighlighter/unicodeHighlighter.ts:136-182 | the banner is hidden and old decorations removed; there is no highlighter iff there is no model or all three categories resolve to off; the worker strategy is chosen iff the worker can serve the model; options come from resolution; an update is scheduled |
| Controller.Init | src/vs/editor/contrib/unicodeHighlighter/unicodeHighlighter.ts:49-78 | construction yields a controller satisfying the invariant, banner hidden and not dismissed |
| Controller.RunUpdate | src/vs/editor/contrib/unicodeHighlighter/unicodeHighlighter.ts:242-250 | a scheduled update keeps the controller invariant; a model without non-basic ASCII loses every tracked decoration; the whole-document highlighter only records a worker call carrying the current version id, leaving banner and decorations alone; the viewport highlighter sets the banner from the aggregate of the visible ranges and replaces the decorations by one per aggregated range |
| Controller.ViewportUpdateNamesNonBasicAscii | src/vs/editor/contrib/unicodeHighlighter/unicodeHighlighter.ts:343-368 | an overflowing viewport update with the banner not dismissed shows the non-basic ASCII banner, whatever category dominates |
| Controller.WorkerResult | src/vs/editor/contrib/unicodeHighlighter/unicodeHighlighter.ts:249-270 | an answered worker call keeps the controller invariant |
| Controller.Step | src/vs/editor/contrib/unicodeHighlighter/unicodeHighlighter.ts:57-74 | every event keeps the invariant: a dismissed banner is hidden; live decorations are exactly the highlighter's, uniformly styled; a highlighter exists only with a model and an enabled category; pending calls carry versions not newer than the model's |
| Controller.GetDecorationInfo | src/vs/editor/contrib/unicodeHighlighter/unicodeHighlighter.ts:273-296 | nothing without a highlighter or for an id it does not track; for a tracked id, info exists iff the decoration at its current range (as the text model has moved it) is visible, and it holds the reason recomputed from the text under that range plus the comment and string membership |
| Controller.DecorationInfoFollowsMoves | src/vs/editor/contrib/unicodeHighlighter/unicodeHighlighter.ts:277-279 | when the text model reports a tracked decoration at a moved range, the reason is recomputed from the text at the moved range |
| Controller.DisabledHasNoHighlighter | src/vs/editor/contrib/unicodeHighlighter/unicodeHighlighter.ts:148-157 | with all categories off, rebuilding leaves no highlighter and every decoration-info query answers nothing |
| Controller.StaleResultIgnored | src/vs/editor/contrib/unicodeHighlighter/unicodeHighlighter.ts:252-255 | an answer captured at an older model version changes neither the banner, nor decorations, nor tracked ids |
| Controller.CurrentResultApplied | src/vs/editor/contrib/unicodeHighlighter/unicodeHighlighter.ts:256-269 | an answer captured at the live version is applied: the banner follows it; the store gains one decoration per range of the answer, in order and in the highlighter's style (none with `hasMore`); the tracked ids are exactly the fresh ids of those decorations, disjoint from the old ones |
| Controller.BannerDismissalIsSticky | src/vs/editor/contrib/unicodeHighlighter/unicodeHighlighter.ts:88-92 | the dismissed flag is set only by the close callback and cleared only by a model change; while it is set the banner stays hidden |
| Controller.ScheduleCollapses | src/vs/editor/contrib/unicodeHighlighter/unicodeHighlighter.ts:228-234 | scheduling twice before the scheduler fires is the same as scheduling once; this records only the scheduler's collapsing of repeated requests |
| Controller.ApplyResultIdempotent | src/vs/editor/contrib/unicodeHighlighter/unicodeHighlighter.ts:256-269 | applying the same result twice gives the same banner and the same decorations, in the same order, as applying it once |
| Controller.OrphanResultAsWritten | src/vs/editor/contrib/unicodeHighlighter/unicodeHighlighter.ts:251-269 | the callback of a disposed highlighter still sets the banner and adds the result's decorations as new live ones |
| Controller.OrphanResultLeaksDecorations | src/vs/editor/contrib/unicodeHighlighter/unicodeHighlighter.ts:237-269 | turning every category off while a worker call is pending, then receiving its answer, leaves live decorations that no highlighter tracks |
| Controller.DisposedHighlighterAnswersDropped | src/vs/editor/contrib/unicodeHighlighter/unicodeHighlighter.ts:237-240 | with no highlighter, a worker answer changes nothing and no decoration stays live |
| CodePointFormat.ToHex | src/vs/editor/contrib/unicodeHighlighter/unicodeHighlighter.ts:448 | `toString(16)` gives at least one lower-case hexadecimal digit and no leading zero |
| CodePointFormat.ParseToHex | src/vs/editor/contrib/unicodeHighlighter/unicodeHighlighter.ts:448 | reading the hexadecimal digits gives back the number |
| CodePointFormat.PadStart | src/vs/editor/contrib/unicodeHighlighter/unicodeHighlighter.ts:448 | `padStart` prefixes fill characters up to the width and keeps longer strings |
| CodePointFormat.Hex4RoundTrip | src/vs/editor/contrib/unicodeHighlighter/unicodeHighlighter.ts:448 | the padded digits are at least four long, all hexadecimal, and read back as the code point |
| CodePointFormat.CharOf | src/vs/editor/contrib/unicodeHighlighter/unicodeHighlighter.ts:513 | `String.fromCodePoint` yields the character with that code point (non-surrogates) |
| CodePointFormat.InlineCodeReadsBack | src/vs/editor/contrib/unicodeHighlighter/unicodeHighlighter.ts:509-514 | the inline code reads back, as a CommonMark code span, as exactly the character, the backtick included |
| CodePointFormat.FormatCodePointReadsBack | src/vs/editor/contrib/unicodeHighlighter/unicodeHighlighter.ts:447-454 | the text opens with a code span reading `U+` and digits that denote the code point; the character follows as its own span iff it is not invisible |
| ExcludeOptions.ExcludeMenu | src/vs/editor/contrib/unicodeHighlighter/unicodeHighlighter.ts:712-752 | entry order: one allow-locale entry per locale (ambiguous characters only), the exclude-character entry, disable-in-comments or else disable-in-strings when applicable, and last the disable entry for the reason's kind |
| ExcludeOptions.ExcludeMenuShape | src/vs/editor/contrib/unicodeHighlighter/unicodeHighlighter.ts:712-752 | exactly one exclude-character entry and one category entry; a scope entry iff the character is in a comment or string; locale entries only for ambiguous characters |
| ExcludeOptions.MarkAllowed | src/vs/editor/contrib/unicodeHighlighter/unicodeHighlighter.ts:776-778 | the keys become exactly the old keys plus the given ones; every given key maps to true; other entries are unchanged |
| ExcludeOptions.ExcludeCharFromBeingHighlighted | src/vs/editor/contrib/unicodeHighlighter/unicodeHighlighter.ts:765-780 | every given code point's character becomes a key mapped to true; no other key is added; other existing entries are kept; a non-object value starts from `{}` |
| ExcludeOptions.ExcludeLocaleFromBeingHighlighted | src/vs/editor/contrib/unicodeHighlighter/unicodeHighlighter.ts:782-798 | every given locale becomes a key mapped to true; the key set is the user value's keys plus the locales; other entries are kept |
| ExcludeOptions.RunItem | src/vs/editor/contrib/unicodeHighlighter/unicodeHighlighter.ts:714-752 | an allow entry merges its key into its map and changes nothing else; each disable entry sets exactly its own setting to false |
| ExcludeOptions.PickDisableEntry | src/vs/editor/contrib/unicodeHighlighter/unicodeHighlighter.ts:740-761 | running the menu's last entry turns the hovered character's category off under any trust |
| ExcludeOptions.PickExcludeCharacterEntry | src/vs/editor/contrib/unicodeHighlighter/unicodeHighlighter.ts:725-730 | running the exclude-character entry makes the hovered character an allowed code point of the classifier |
| ExcludeOptions.ExcludeCharacterIsOne | src/vs/editor/contrib/unicodeHighlighter/unicodeHighlighter.ts:725-730 | the menu's exclude-character entry names the hovered code point |
| MarkdownHoverParticipant.ValidityIgnoresLines | src/vs/editor/contrib/hover/markdownHoverParticipant.ts:36-42 | validity is unchanged by any change of either range's line numbers |
| MarkdownHoverParticipant.ColumnOnlyValidityExample | src/vs/editor/contrib/hover/markdownHoverParticipant.ts:36-42 | a part on columns 10-20 is valid for an anchor on columns 12-14 of another line, not for columns 9-14, and not for a non-range anchor |
| MarkdownHoverParticipant.ValidityNarrows | src/vs/editor/contrib/hover/markdownHoverParticipant.ts:36-42 | narrowing a range anchor's columns keeps a part valid |
| MarkdownHoverParticipant.CreateLoadingMessage | src/vs/editor/contrib/hover/markdownHoverParticipant.ts:55-57 | one non-empty message covering the anchor's range, at ordinal 2000 |
| MarkdownHoverParticipant.ClipToLine | src/vs/editor/contrib/hover/markdownHoverParticipant.ts:83-91 | the clipped range lies on the anchor's line with start column not after end column |
| MarkdownHoverParticipant.ClipToLineCases | src/vs/editor/contrib/hover/markdownHoverParticipant.ts:83-91 | a decoration on the line is kept as is; one spanning the line becomes the full line; one starting on it runs to the line's maximum column; one ending on it runs from column 1 |
| MarkdownHoverParticipant.WithMessagesMembers | src/vs/editor/contrib/hover/markdownHoverParticipant.ts:86-89 | exactly the decorations whose hover message is not empty are kept |
| MarkdownHoverParticipant.ComputeSync | src/vs/editor/contrib/hover/markdownHoverParticipant.ts:59-96 | no parts without a model or for a non-range anchor; otherwise the long-line notice first iff the limit is a number the line reaches, then one part per decoration with a message, clipped to the line, all numbered 1000, 1001, ... and non-empty |
| MarkdownHoverParticipant.MessageParts | src/vs/editor/contrib/hover/markdownHoverParticipant.ts:83-93 | one part per decoration with a non-empty message, in order, clipped to the anchor's line, carrying the message as an array, numbered on from the given ordinal |
| MarkdownHoverParticipant.ProviderParts | src/vs/editor/contrib/hover/markdownHoverParticipant.ts:110-115 | a provider hover yields a part iff its contents are not all empty; every part comes from such a hover |
| MarkdownHoverParticipant.ProviderPartsAppend | src/vs/editor/contrib/hover/markdownHoverParticipant.ts:110-115 | the filter and map distribute over concatenation, so parts keep the providers' arrival order and duplicates are kept |
| MarkdownHoverParticipant.ProviderPartsSingle | src/vs/editor/contrib/hover/markdownHoverParticipant.ts:110-115 | a single provider hover gives its own part, or nothing when its contents are all empty |
| MarkdownHoverParticipant.ComputeAsync | src/vs/editor/contrib/hover/markdownHoverParticipant.ts:98-116 | no parts without a model, for a non-range anchor or without a provider; otherwise the provider parts |
| MarkdownHoverParticipant.ProviderPartShape | src/vs/editor/contrib/hover/markdownHoverParticipant.ts:112-114 | a provider part keeps the provider's ordinal and contents; its range is ordered; it is the anchor's when the provider gives none, and the provider's range otherwise, with its ends swapped when they come in reverse order |
| HoverRender.SortByOrdinal | src/vs/editor/contrib/hover/markdownHoverParticipant.ts:132-133 | the sort's output is ordered by ordinal and is a permutation of its input |
| HoverRender.SortIsStable | src/vs/editor/contrib/hover/markdownHoverParticipant.ts:132-133 | parts sharing an ordinal keep their relative order |
| HoverRender.SortSortedIsIdentity | src/vs/editor/contrib/hover/markdownHoverParticipant.ts:132-133 | sorting parts already in order changes nothing |
| HoverRender.SortedBands | src/vs/editor/contrib/hover/markdownHoverParticipant.ts:132-133 | after sorting, every part below an ordinal bound precedes every part at or above it |
| HoverRender.NonEmptyMembers | src/vs/editor/contrib/hover/markdownHoverParticipant.ts:137-140 | a part's rows are exactly its non-empty strings; there are none iff all are empty |
| HoverRender.NonEmptyAppend | src/vs/editor/contrib/hover/markdownHoverParticipant.ts:137-140 | skipping empty strings distributes over concatenation, so the kept strings stay in order and keep their multiplicity |
| HoverRender.NonEmptySingle | src/vs/editor/contrib/hover/markdownHoverParticipant.ts:137-140 | a single string is kept exactly when it is non-empty |
| HoverRender.RenderRowsAppend | src/vs/editor/contrib/hover/markdownHoverParticipant.ts:136-152 | rendering two batches of parts is rendering each in turn |
| HoverRender.RenderRowsMembers | src/vs/editor/contrib/hover/markdownHoverParticipant.ts:136-152 | a string is rendered iff it is non-empty and some part carries it |
| HoverRender.RenderMarkdownHovers | src/vs/editor/contrib/hover/markdownHoverParticipant.ts:123-154 | every row is non-empty, and a string is rendered iff it is non-empty and some part carries it |
| HoverRender.SortBands | src/vs/editor/contrib/hover/markdownHoverParticipant.ts:135 | sorting parts whose ordinals all lie below another batch's sorts each batch on its own and puts the lower batch first |
| HoverRender.RenderFollowsOrdinals | src/vs/editor/contrib/hover/markdownHoverParticipant.ts:123-154 | when every ordinal of one batch is below every ordinal of another, the first batch's rows precede the second's, whatever order the parts arrived in |
| UnicodeHover.FirstCodePoint | src/vs/editor/contrib/unicodeHighlighter/unicodeHighlighter.ts:443-445 | `codePointAt(0)` gives the first character's code point, and nothing on empty text |
| UnicodeHover.WithInfoMembers | src/vs/editor/contrib/unicodeHighlighter/unicodeHighlighter.ts:437-442 | exactly the decorations the highlighter has info for are kept |
| UnicodeHover.HoverKeepsTrackedVisible | src/vs/editor/contrib/unicodeHighlighter/unicodeHighlighter.ts:430-442 | with the controller's `getDecorationInfo`, the hover keeps exactly the line decorations the highlighter tracks and the model shows |
| UnicodeHover.RenderedNonEmpty | src/vs/editor/contrib/unicodeHighlighter/unicodeHighlighter.ts:486-497 | the markdown of a hover part, explanation plus settings link, is never empty |
| UnicodeHover.ComputeSync | src/vs/editor/contrib/unicodeHighlighter/unicodeHighlighter.ts:423-502 | no parts without a model, for a non-range anchor or without the highlighter contribution; otherwise one part per decoration with info, in order, over the decoration's range, numbered 300, 301, ..., holding the explanation and settings link for the first code point of the decoration's text; the call fails exactly when such a decoration covers no text |
| UnicodeHover.CollectParts | src/vs/editor/contrib/unicodeHighlighter/unicodeHighlighter.ts:434-500 | the loop fails exactly when a decoration with info covers no text, and otherwise yields that decoration's part for each one, in order |
| UnicodeHover.ReasonNamesCodePoint | src/vs/editor/contrib/unicodeHighlighter/unicodeHighlighter.ts:456-484 | every explanation starts with "The character " and the formatted code point |
| UnicodeHover.ReasonTextTellsKind | src/vs/editor/contrib/unicodeHighlighter/unicodeHighlighter.ts:459-484 | equal explanations imply the same reason kind |
| UnicodeHover.HoverLinkOpensMenuForItsCharacter | src/vs/editor/contrib/unicodeHighlighter/unicodeHighlighter.ts:486-497 | the menu opened by a part's link offers to exclude exactly the hovered character; it has locale entries only for ambiguous characters and ends with the disable entry for the reason |

## Left out

- The character classifier (`UnicodeTextModelHighlighter`), the editor worker, `isModelDecorationVisible`, comment and string detection, and `InvisibleCharacters` are parameters. Worker answers are `WorkerAnswered` events; the classifier appears as `computeReason`, `isInvisible` and the per-range results of `SchedulerFired`.
- The hover participants read the editor through parameters. The Unicode hover takes the contribution's `getDecorationInfo` (which `Controller.GetDecorationInfo` models for a controller) and the model's `getValueInRange` as functions. The markdown hover takes the line's maximum column and length and the `editor.maxTokenizationLineLength` value as numbers.
- The 250 ms `RunOnceScheduler` delay is not modelled. Scheduling is a pending flag that the `SchedulerFired` event consumes.
- The DOM, the markdown renderer, disposables, icons, theme colours, stickiness, and the overview-ruler and minimap decoration options are left out; a style is its class name and hide flags.
- ExcludeOptions.ExcludeCharFromBeingHighlighted: the source adds the keys to the very object the configuration service's `getValue` returned, where the locale variant copies first because that value is read only; the model merges into a fresh map, so neither the write into the service's own value nor a failure to write into a read-only one is modelled.
- HoverRender.RenderMarkdownHovers: the source sorts the caller's `hoverParts` array in place, so the caller sees it reordered afterwards; the model sorts into a new sequence and leaves the input as it was.
- How edits move decorations is the text model's business: the store keeps each decoration's creation-time range, and `getDecorationInfo` takes the current range through the `decorationRange` query.
- Localisation is left out: texts are the English defaults. Menu entry labels other than the exclude-character label are not modelled.
- Configuration writes go to the user target. The model takes the effective value after a write to be the written value; workspace and folder overrides are not modelled.
- Two locale sources are parameters: the OS locale (`Intl.NumberFormat().resolvedOptions().locale`) and the display language.
- `JSON.stringify` and `encodeURIComponent` of the menu arguments are one parameter. The menu is built from the arguments as given, taking decoding to be the inverse of encoding.
- The quick pick itself (choosing no entry) is not modelled; `PickExcludeCharacterEntry` runs the exclude-character entry and `PickDisableEntry` runs the last entry.
- `BannerController`, the `Range` class, `htmlContent.ts`, `getHover` and the hover widget are not part of this model.
  - The `Range` constructor's swap of a start that lies after its end is modelled in `MakeRange`.
  - `isEmptyMarkdownString` is modelled as: the value is empty, and an array is empty when every element is.
  - Hiding the banner when it is closed is assumed.
- Action registration and action ids are left out. The disable-in-comments and disable-in-strings actions reuse the ambiguous action's id; the menu runs them directly, so the id does not matter there.
- CodePointFormat.CharOf: a Dafny character cannot hold a lone surrogate, so code points D800-DFFF are shown as U+FFFD where the source would build a lone surrogate.
- HighlightOptions.ToHighlighterOptions: an empty key of the allowed-characters object contributes no code point. The source would put `undefined` in the list.
- Controller.GetDecorationInfo: `computeReason` is taken to always give a reason, as the source's non-null assertion states.
- Controller.Step: a worker answer is matched only against the current highlighter's pending calls, so answers to a disposed highlighter are dropped. The source applies them (see Findings, and `Controller.OrphanResultAsWritten`).
- UnicodeHover.ComputeSync: when a highlighted decoration covers no text, the source throws while formatting `undefined`. The model returns `None` for that outcome and does not model the exception's propagation.
- MarkdownHoverParticipant.ComputeAsync: the asynchronous iterable is a finite sequence in arrival order, and cancellation is not modelled.

## Findings

| source | as written | input that shows it | evidently intended | confidence | as-written member | corrected member |
|---|---|---|---|---|---|---|
| src/vs/editor/contrib/unicodeHighlighter/unicodeHighlighter.ts:355-357 | each count is incremented by itself (`total.x += total.x`), so it stays 0 | one visible range whose result has 5 invisible characters and `hasMore`: the banner names non-basic ASCII | add the range's count (`total.x += result.x`), so the banner names the dominant category | high, not executed | ViewportAggregation.SelfAdditionMisnamesCategory | ViewportAggregation.SummedBannerPicksDominant |
| src/vs/editor/contrib/unicodeHighlighter/unicodeHighlighter.ts:251-269 | a worker answer still runs after its highlighter was disposed; with an unedited model the version check passes, and it adds decorations and sets the banner | a configuration change turning every category off while a worker call is pending at the live version, then the answer with one range and no `hasMore`: a decoration stays live that no highlighter tracks | a disposed highlighter ignores late answers | medium, not executed | Controller.OrphanResultLeaksDecorations | Controller.DisposedHighlighterAnswersDropped |

=== FILE: banner.dfy ===
/** `_updateState`: which notice the banner shows for a highlight result, and
    when a dismissed banner stays suppressed. */
module Banner {
  import opened Wrappers
  import opened EditorTypes

  /** The three notices; each names one category and offers the action that
      disables highlighting of that category. */
  datatype Category = NonBasicAsciiCategory | AmbiguousCategory | InvisibleCategory

  /** What the banner controller displays. */
  datatype BannerView = Hidden | Shown(category: Category)

  /** `Math.max` of the three counts. */
  function MaxCount(r: HighlightResult): (m: nat)
    ensures m >= r.ambiguousCharacterCount && m >= r.nonBasicAsciiCharacterCount && m >= r.invisibleCharacterCount
    ensures m == r.ambiguousCharacterCount || m == r.nonBasicAsciiCharacterCount || m == r.invisibleCharacterCount
  {
    var a := r.ambiguousCharacterCount;
    var n := r.nonBasicAsciiCharacterCount;
    var i := r.invisibleCharacterCount;
    if a >= n && a >= i then a else if n >= i then n else i
  }

  /** The count of one category in a result. */
  function CountOf(r: HighlightResult, c: Category): nat {
    match c
    case NonBasicAsciiCategory => r.nonBasicAsciiCharacterCount
    case AmbiguousCategory => r.ambiguousCharacterCount
    case InvisibleCategory => r.invisibleCharacterCount
  }

  /** The category the banner names: the largest count wins, ties going to
      non-basic ASCII, then ambiguous, then invisible. The chain ends with
      `throw new Error('Unreachable')`; here that branch is proved dead. */
  function PickCategory(r: HighlightResult): (c: Category)
    ensures c == NonBasicAsciiCategory <==> r.nonBasicAsciiCharacterCount == MaxCount(r)
    ensures c == AmbiguousCategory <==>
              r.nonBasicAsciiCharacterCount < MaxCount(r) && r.ambiguousCharacterCount == MaxCount(r)
    ensures c == InvisibleCategory <==>
              r.nonBasicAsciiCharacterCount < MaxCount(r) && r.ambiguousCharacterCount < MaxCount(r)
    ensures forall other: Category :: CountOf(r, other) <= CountOf(r, c)
  {
    var max := MaxCount(r);
    if r.nonBasicAsciiCharacterCount >= max then NonBasicAsciiCategory
    else if r.ambiguousCharacterCount >= max then AmbiguousCategory
    else if r.invisibleCharacterCount >= max then InvisibleCategory
    else assert false; InvisibleCategory
  }

  /** `_updateState(state)`: a missing state or one without `hasMore` hides the
      banner; a truncated state shows the notice for its dominant category,
      unless the user dismissed the banner, in which case nothing changes. */
  function UpdateState(banner: BannerView, bannerClosed: bool, state: Option<HighlightResult>): (b: BannerView)
    ensures (state.None? || !state.value.hasMore) ==> b == Hidden
    ensures state.Some? && state.value.hasMore && bannerClosed ==> b == banner
    ensures state.Some? && state.value.hasMore && !bannerClosed ==> b == Shown(PickCategory(state.value))
  {
    if state.Some? && state.value.hasMore then
      if bannerClosed then banner
      else Shown(PickCategory(state.value))
    else
      Hidden
  }

  /** The documented scenario: ambiguous 5, invisible 12, non-basic ASCII 3,
      truncated, names the invisible category. */
  lemma InvisibleDominates()
    ensures UpdateState(Hidden, false, Some(HighlightResult([], 5, 12, 3, true))) == Shown(InvisibleCategory)
  {
  }
}

=== FILE: code_point_format.dfy ===
/** How the hover and the exclude menu print a code point: `U+` and lower-case
    hexadecimal (padded to four digits in the hover), and the character
    itself as markdown inline code. */
module CodePointFormat {
  import opened Wrappers
  import opened EditorTypes

  /** A lower-case hexadecimal digit. */
  predicate IsHexDigit(c: char) {
    '0' <= c <= '9' || 'a' <= c <= 'f'
  }

  /** The digit for a value below 16. */
  function HexDigit(d: nat): (c: char)
    requires d < 16
    ensures IsHexDigit(c)
  {
    if d < 10 then (('0' as int) + d) as char else (('a' as int) + d - 10) as char
  }

  /** The value of a lower-case hexadecimal digit (0 for any other char). */
  function DigitValue(c: char): (v: nat)
    ensures v < 16
    ensures forall d :: 0 <= d < 16 && HexDigit(d) == c ==> v == d
  {
    if '0' <= c <= '9' then (c as int) - ('0' as int)
    else if 'a' <= c <= 'f' then (c as int) - ('a' as int) + 10
    else 0
  }

  /** `n.toString(16)`: lower-case hexadecimal without leading zeros. */
  function ToHex(n: nat): (s: string)
    ensures |s| >= 1
    ensures forall i :: 0 <= i < |s| ==> IsHexDigit(s[i])
    ensures |s| > 1 ==> s[0] != '0'
    decreases n
  {
    if n < 16 then [HexDigit(n)] else ToHex(n / 16) + [HexDigit(n % 16)]
  }

  /** Reads a hexadecimal digit string back into a number. */
  function ParseHex(s: string): nat
    decreases |s|
  {
    if |s| == 0 then 0 else ParseHex(s[..|s| - 1]) * 16 + DigitValue(s[|s| - 1])
  }

  /** Hexadecimal printing is undone by reading. */
  lemma {:induction false} ParseToHex(n: nat)
    ensures ParseHex(ToHex(n)) == n
    decreases n
  {
    if n >= 16 {
      ParseToHex(n / 16);
      var s := ToHex(n);
      assert s[..|s| - 1] == ToHex(n / 16);
    }
  }

  /** `count` copies of `c`. */
  function Repeat(c: char, count: nat): (r: string)
    ensures |r| == count && forall i :: 0 <= i < count ==> r[i] == c
    decreases count
  {
    if count == 0 then [] else [c] + Repeat(c, count - 1)
  }

  /** Leading zeros do not change the value read. */
  lemma {:induction false} ParseLeadingZeros(count: nat, s: string)
    ensures ParseHex(Repeat('0', count) + s) == ParseHex(s)
    decreases |s|
  {
    if |s| == 0 {
      ParseZeros(count);
      assert Repeat('0', count) + s == Repeat('0', count);
    } else {
      var t := Repeat('0', count) + s;
      assert t[..|t| - 1] == Repeat('0', count) + s[..|s| - 1];
      ParseLeadingZeros(count, s[..|s| - 1]);
    }
  }

  lemma {:induction false} ParseZeros(count: nat)
    ensures ParseHex(Repeat('0', count)) == 0
    decreases count
  {
    if count > 0 {
      var z := Repeat('0', count);
      assert z[..count - 1] == Repeat('0', count - 1);
      ParseZeros(count - 1);
    }
  }

  /** `s.padStart(width, fill)`. */
  function PadStart(s: string, width: nat, fill: char): (r: string)
    ensures |r| == if |s| >= width then |s| else width
    ensures r == Repeat(fill, |r| - |s|) + s
  {
    if |s| >= width then
      assert Repeat(fill, 0) + s == s;
      s
    else Repeat(fill, width - |s|) + s
  }

  /** The hover's code point digits: `codePoint.toString(16).padStart(4, '0')`. */
  function Hex4(cp: CodePoint): string {
    PadStart(ToHex(cp), 4, '0')
  }

  /** The padded digits are at least four long, all lower-case hexadecimal,
      and read back as the code point. */
  lemma Hex4RoundTrip(cp: CodePoint)
    ensures |Hex4(cp)| >= 4
    ensures forall i :: 0 <= i < |Hex4(cp)| ==> IsHexDigit(Hex4(cp)[i])
    ensures ParseHex(Hex4(cp)) == cp
  {
    var h := ToHex(cp);
    var p := Hex4(cp);
    var z := |p| - |h|;
    assert p == Repeat('0', z) + h;
    ParseToHex(cp);
    ParseLeadingZeros(z, h);
    ZeroPaddedDigits(z, h);
  }

  lemma ZeroPaddedDigits(z: nat, h: string)
    requires forall i :: 0 <= i < |h| ==> IsHexDigit(h[i])
    ensures forall i :: 0 <= i < z + |h| ==> IsHexDigit((Repeat('0', z) + h)[i])
  {
    var p := Repeat('0', z) + h;
    forall i | 0 <= i < |p|
      ensures IsHexDigit(p[i])
    {
      if i < z {
        assert p[i] == '0';
      } else {
        assert p[i] == h[i - z];
      }
    }
  }

  /** `String.fromCodePoint`. A Dafny string holds Unicode scalar values
      only, so a lone surrogate code point is shown as U+FFFD. */
  function CharOf(cp: CodePoint): (c: char)
    ensures !(0xD800 <= cp <= 0xDFFF) ==> c as int == cp
  {
    if 0xD800 <= cp <= 0xDFFF then '\U{FFFD}' else cp as char
  }

  /** `renderCodePointAsInlineCode`: the character as markdown inline code; a
      backtick needs a double-backtick span padded with spaces. */
  function RenderCodePointAsInlineCode(cp: CodePoint): string {
    if cp == 0x60 then "`` ` ``" else "`" + [CharOf(cp)] + "`"
  }

  /** `formatCodePoint` of the hover: the padded code point as inline code,
      followed by the character itself unless it is invisible. */
  function FormatCodePoint(cp: CodePoint, isInvisible: bool): string {
    var value := "`U+" + Hex4(cp) + "`";
    if isInvisible then value else value + " \"" + RenderCodePointAsInlineCode(cp) + "\""
  }

  /** The number of backticks `s` starts with. */
  function LeadingBackticks(s: string): (n: nat)
    ensures n <= |s|
    ensures forall i :: 0 <= i < n ==> s[i] == '`'
    ensures n < |s| ==> s[n] != '`'
    decreases |s|
  {
    if |s| > 0 && s[0] == '`' then 1 + LeadingBackticks(s[1..]) else 0
  }

  /** A maximal run of exactly `n` backticks starts at `i`. */
  predicate RunAt(s: string, i: int, n: nat) {
    && 0 <= i && i + n <= |s|
    && (forall k :: i <= k < i + n ==> s[k] == '`')
    && (i == 0 || s[i - 1] != '`')
    && (i + n == |s| || s[i + n] != '`')
  }

  /** The code span content reading of CommonMark (section 6.1 of the
      CommonMark specification, without line-ending handling): `s` must be
      one span, opened and closed by runs of the same length with no such
      run inside; one space is stripped from each side when both sides have
      one and the content is not only spaces. None when `s` is not a span. */
  function CodeSpanContent(s: string): Option<string> {
    var n := LeadingBackticks(s);
    if n == 0 || |s| < 2 * n + 1 then None
    else if !RunAt(s, |s| - n, n) then None
    else
      var inner := s[n..|s| - n];
      if exists i :: 0 <= i < |inner| && RunAt(inner, i, n) then None
      else if inner[0] == '`' || inner[|inner| - 1] == '`' then None
      else if |inner| >= 2 && inner[0] == ' ' && inner[|inner| - 1] == ' '
              && exists i :: 0 <= i < |inner| && inner[i] != ' ' then
        Some(inner[1..|inner| - 1])
      else Some(inner)
  }

  /** A string without backticks has no backtick run. */
  lemma NoBacktickNoRun(s: string, n: nat)
    requires n > 0
    requires forall k :: 0 <= k < |s| ==> s[k] != '`'
    ensures forall i :: 0 <= i < |s| ==> !RunAt(s, i, n)
  {
    forall i | 0 <= i < |s| ensures !RunAt(s, i, n) {
      assert s[i] != '`';
    }
  }

  /** A backtick-free string in single backticks reads back as itself. */
  lemma SingleSpanReadsBack(inner: string)
    requires |inner| > 0
    requires forall k :: 0 <= k < |inner| ==> inner[k] != '`'
    requires !(|inner| >= 2 && inner[0] == ' ' && inner[|inner| - 1] == ' ')
    ensures CodeSpanContent("`" + inner + "`") == Some(inner)
  {
    var s := "`" + inner + "`";
    assert s[1] == inner[0];
    assert s[1..][0] == inner[0];
    assert LeadingBackticks(s[1..]) == 0;
    assert LeadingBackticks(s) == 1;
    assert s[|s| - 2] == inner[|inner| - 1];
    assert RunAt(s, |s| - 1, 1);
    assert s[1..|s| - 1] == inner;
    NoBacktickNoRun(inner, 1);
  }

  /** The inline code reads back, as a CommonMark code span, as exactly the
      character; the backtick case needs its double delimiters for that. */
  lemma InlineCodeReadsBack(cp: CodePoint)
    ensures CodeSpanContent(RenderCodePointAsInlineCode(cp)) == Some([CharOf(cp)])
  {
    var s := RenderCodePointAsInlineCode(cp);
    if cp == 0x60 {
      assert s == "`` ` ``";
      assert s[2..][0] == ' ';
      assert LeadingBackticks(s[2..]) == 0;
      assert LeadingBackticks(s[1..]) == 1 + LeadingBackticks(s[1..][1..]);
      assert s[1..][1..] == s[2..];
      assert LeadingBackticks(s) == 2;
      assert RunAt(s, 5, 2);
      var inner := s[2..5];
      assert inner == " ` ";
      forall i | 0 <= i < |inner| ensures !RunAt(inner, i, 2) {
        assert inner[0] != '`' && inner[2] != '`';
      }
      assert inner[1] != ' ';
      assert inner[1..|inner| - 1] == "`";
      assert CharOf(cp) == '`';
    } else {
      var c := CharOf(cp);
      assert c != '`';
      assert s == "`" + [c] + "`";
      SingleSpanReadsBack([c]);
    }
  }

  /** The hover's code point text: its leading span reads back as `U+` and
      digits denoting the code point, and the character follows, as its own
      span, exactly when it is not invisible. */
  lemma FormatCodePointReadsBack(cp: CodePoint, isInvisible: bool)
    ensures var s := FormatCodePoint(cp, isInvisible);
            var k := |Hex4(cp)| + 4;
            && k <= |s|
            && CodeSpanContent(s[..k]) == Some("U+" + Hex4(cp))
            && ParseHex(Hex4(cp)) == cp
            && (isInvisible <==> |s| == k)
            && (!isInvisible ==> k + 3 <= |s| && CodeSpanContent(s[k + 2..|s| - 1]) == Some([CharOf(cp)]))
  {
    var s := FormatCodePoint(cp, isInvisible);
    var h := Hex4(cp);
    var k := |h| + 4;
    var head := "`U+" + h + "`";
    assert s[..k] == head;
    HeadReadsBack(cp);
    if !isInvisible {
      var r := RenderCodePointAsInlineCode(cp);
      assert s == head + " \"" + r + "\"";
      assert s[k + 2..|s| - 1] == r;
      InlineCodeReadsBack(cp);
    }
  }

  lemma HeadReadsBack(cp: CodePoint)
    ensures CodeSpanContent("`U+" + Hex4(cp) + "`") == Some("U+" + Hex4(cp))
    ensures ParseHex(Hex4(cp)) == cp
  {
    Hex4RoundTrip(cp);
    var h := Hex4(cp);
    var inner := "U+" + h;
    forall i | 0 <= i < |inner| ensures inner[i] != '`' {
      if i >= 2 {
        assert inner[i] == h[i - 2] && IsHexDigit(h[i - 2]);
      }
    }
    assert "`U+" + h + "`" == "`" + inner + "`";
    SingleSpanReadsBack(inner);
  }
}

=== FILE: controller.dfy ===
/** `UnicodeHighlighter` with its two strategies, `DocumentUnicodeHighlighter`
    and `ViewportUnicodeHighlighter`, as one state record driven by editor
    events. Services (workspace trust, the editor worker, the text model's
    queries) are parameters; the text model's decorations are kept with
    fresh ids. */
module Controller {
  import opened Wrappers
  import opened EditorTypes
  import opened HighlightOptions
  import opened DecorationStyles
  import opened Banner
  import opened ViewportAggregation

  /** A decoration of this feature in the text model. */
  datatype Decoration = Decoration(range: Range, options: DecorationOptions)

  /** Which highlighter `_updateHighlighter` built: the worker-backed
      whole-document one, or the inline viewport one. */
  datatype Strategy = WholeDocument | Viewport

  /** One highlighter. `updatePending` is the `RunOnceScheduler` being
      scheduled; `inFlight` holds, per unanswered worker call, the model
      version captured just before the call. */
  datatype Highlighter = Highlighter(
    strategy: Strategy,
    options: HighlighterOptions,
    decorationIds: set<DecorationId>,
    updatePending: bool,
    inFlight: seq<nat>)

  /** What `_updateHighlighter` reads from services: workspace trust, whether
      the worker can classify this model, and the two locales. */
  datatype Environment = Environment(trusted: bool, workerAvailable: bool, osLocale: string, uiLanguage: string)

  /** The text model's decorations of this feature: every decoration ever
      added, its id being its index, and the ids not yet removed. */
  datatype DecorationStore = DecorationStore(history: seq<Decoration>, live: set<DecorationId>)

  /** The controller, its highlighter, the banner, and the parts of the
      editor it acts on: the model's presence and version, this feature's
      decorations, and the style cache. */
  datatype Controller = Controller(
    rawOptions: RawOptions,
    hasModel: bool,
    versionId: nat,
    highlighter: Option<Highlighter>,
    bannerClosed: bool,
    banner: BannerView,
    store: DecorationStore,
    styles: StyleCache)

  /** The events the controller and its highlighter subscribe to. */
  datatype Event =
    | ModelChanged(hasModel: bool, versionId: nat, env: Environment)
    | TrustChanged(env: Environment)
    | ConfigurationChanged(unicodeHighlightingChanged: bool, options: RawOptions, env: Environment)
    | ContentChanged
    | ViewChanged
    | SchedulerFired(mightContainNonBasicAscii: bool, visibleResults: seq<HighlightResult>)
    | WorkerAnswered(request: nat, info: HighlightResult)
    | BannerDismissed

  /** The style every decoration of a highlighter carries. */
  function HighlighterStyle(o: HighlighterOptions): DecorationOptions {
    StyleFor(!o.includeComments, !o.includeStrings)
  }

  /** At least one of the three categories is highlighted. */
  predicate Enabled(o: HighlighterOptions) {
    o.nonBasicASCII || o.ambiguousCharacters || o.invisibleCharacters
  }

  /** The decoration ids the controller tracks. */
  function LiveIds(c: Controller): set<DecorationId> {
    if c.highlighter.Some? then c.highlighter.value.decorationIds else {}
  }

  /** The controller's invariant. */
  predicate Valid(c: Controller) {
    && (c.bannerClosed ==> c.banner == Hidden)
    && c.store.live == LiveIds(c)
    && ValidCache(c.styles)
    && (c.highlighter.Some? ==>
          && c.hasModel
          && Enabled(c.highlighter.value.options)
          && StyledStore(c.store, HighlighterStyle(c.highlighter.value.options))
          && (forall i :: 0 <= i < |c.highlighter.value.inFlight| ==> c.highlighter.value.inFlight[i] <= c.versionId))
  }

  /** The ids `lo`, `lo + 1`, ..., `lo + n - 1`. */
  function IdBlock(lo: nat, n: nat): (r: set<DecorationId>)
    ensures forall id :: id in r <==> lo <= id < lo + n
    ensures |r| == n
    decreases n
  {
    if n == 0 then {} else IdBlock(lo, n - 1) + {lo + n - 1}
  }

  /** `deltaDecorations(oldIds, newDecorations)`: removes the old ids and adds
      the new decorations under fresh ids, one per decoration, in list order.
      Returns the store and the new ids. */
  function DeltaDecorations(store: DecorationStore, oldIds: set<DecorationId>, newDecorations: seq<Decoration>)
    : (r: (DecorationStore, set<DecorationId>))
    ensures r.1 == IdBlock(|store.history|, |newDecorations|) && |r.1| == |newDecorations|
    ensures r.0.live == (store.live - oldIds) + r.1
    ensures |r.0.history| == |store.history| + |newDecorations|
    ensures forall i :: 0 <= i < |newDecorations| ==> r.0.history[|store.history| + i] == newDecorations[i]
    ensures forall id :: 0 <= id < |store.history| ==> r.0.history[id] == store.history[id]
  {
    var ids := IdBlock(|store.history|, |newDecorations|);
    (DecorationStore(store.history + newDecorations, (store.live - oldIds) + ids), ids)
  }

  /** One decoration per range, in range order, each styled through the
      cache (one `getDecoration` call per range, as the loop does). */
  function DecorationsFor(cache: StyleCache, ranges: seq<Range>, hideInComments: bool, hideInStrings: bool)
    : (r: (seq<Decoration>, StyleCache))
    ensures |r.0| == |ranges|
    ensures forall i :: 0 <= i < |ranges| ==> r.0[i].range == ranges[i]
    ensures ValidCache(cache) ==> ValidCache(r.1)
    ensures ValidCache(cache) ==> forall i :: 0 <= i < |ranges| ==> r.0[i].options == StyleFor(hideInComments, hideInStrings)
    decreases |ranges|
  {
    if |ranges| == 0 then ([], cache)
    else
      var (style, cache1) := GetDecoration(cache, hideInComments, hideInStrings);
      var (rest, cache2) := DecorationsFor(cache1, ranges[1..], hideInComments, hideInStrings);
      ([Decoration(ranges[0], style)] + rest, cache2)
  }

  /** Reference list of the decorations a result should produce: nothing
      when it has more, else one decoration per range, in range order, all
      with the same style. */
  function Decorated(info: HighlightResult, style: DecorationOptions): (r: seq<Decoration>)
    ensures info.hasMore ==> r == []
    ensures !info.hasMore ==> |r| == |info.ranges|
  {
    if info.hasMore then []
    else seq(|info.ranges|, i requires 0 <= i < |info.ranges| => Decoration(info.ranges[i], style))
  }

  /** The decorations `_update` builds for a result: none when `hasMore` is
      set (the banner stands in for them), else one per range. */
  function NewDecorations(cache: StyleCache, info: HighlightResult, o: HighlighterOptions): (r: (seq<Decoration>, StyleCache))
    ensures info.hasMore ==> r.0 == [] && r.1 == cache
    ensures !info.hasMore ==> |r.0| == |info.ranges|
    ensures !info.hasMore ==> forall i :: 0 <= i < |info.ranges| ==> r.0[i].range == info.ranges[i]
    ensures ValidCache(cache) ==> ValidCache(r.1)
    ensures ValidCache(cache) ==> forall i :: 0 <= i < |r.0| ==> r.0[i].options == HighlighterStyle(o)
  {
    if info.hasMore then ([], cache)
    else DecorationsFor(cache, info.ranges, !o.includeComments, !o.includeStrings)
  }

  /** Every live decoration of the store is one of the store's and carries
      the given style. */
  predicate StyledStore(store: DecorationStore, style: DecorationOptions) {
    forall id :: id in store.live ==> id < |store.history| && store.history[id].options == style
  }

  /** A delta whose new decorations all carry the style keeps the store
      uniformly styled. */
  lemma DeltaKeepsStyle(store: DecorationStore, oldIds: set<DecorationId>, decorations: seq<Decoration>, style: DecorationOptions)
    requires StyledStore(store, style)
    requires forall i :: 0 <= i < |decorations| ==> decorations[i].options == style
    ensures StyledStore(DeltaDecorations(store, oldIds, decorations).0, style)
  {
    var (store', ids) := DeltaDecorations(store, oldIds, decorations);
    forall id | id in store'.live
      ensures id < |store'.history| && store'.history[id].options == style
    {
      if id < |store.history| {
        assert id in store.live;
      } else {
        assert store'.history[id] == decorations[id - |store.history|];
      }
    }
  }

  /** Applying a result that is current: the banner follows `_updateState`;
      unless `hasMore`, each range becomes one decoration; the highlighter's
      previous decorations are replaced by the new ones in one delta. */
  function ApplyResult(c: Controller, h: Highlighter, info: HighlightResult): (c': Controller)
    requires Valid(c) && c.highlighter == Some(h)
    ensures Valid(c')
    ensures c'.banner == UpdateState(c.banner, c.bannerClosed, Some(info))
    ensures c'.bannerClosed == c.bannerClosed && c'.versionId == c.versionId
    ensures c'.highlighter.Some?
    ensures var h' := c'.highlighter.value;
            && h'.strategy == h.strategy && h'.options == h.options
            && h'.updatePending == h.updatePending && h'.inFlight == h.inFlight
    ensures c'.store.history == c.store.history + Decorated(info, HighlighterStyle(h.options))
    ensures LiveIds(c') == IdBlock(|c.store.history|, |Decorated(info, HighlighterStyle(h.options))|)
  {
    var style := HighlighterStyle(h.options);
    var built := NewDecorations(c.styles, info, h.options);
    BuiltAsDecorated(c.styles, info, h.options);
    var delta := DeltaDecorations(c.store, h.decorationIds, built.0);
    DecoratedDeltaKeepsStyle(c.store, h.decorationIds, info, style);
    DeltaReplacesAll(c.store, h.decorationIds, built.0);
    c.(banner := UpdateState(c.banner, c.bannerClosed, Some(info)), styles := built.1, store := delta.0,
       highlighter := Some(h.(decorationIds := delta.1)))
  }

  /** Through a valid cache, the built decorations are the reference ones. */
  lemma BuiltAsDecorated(cache: StyleCache, info: HighlightResult, o: HighlighterOptions)
    requires ValidCache(cache)
    ensures NewDecorations(cache, info, o).0 == Decorated(info, HighlighterStyle(o))
  {
  }

  /** Adding the reference decorations keeps the store uniformly styled. */
  lemma DecoratedDeltaKeepsStyle(store: DecorationStore, oldIds: set<DecorationId>, info: HighlightResult,
                                 style: DecorationOptions)
    requires StyledStore(store, style)
    ensures StyledStore(DeltaDecorations(store, oldIds, Decorated(info, style)).0, style)
  {
    DeltaKeepsStyle(store, oldIds, Decorated(info, style), style);
  }

  /** A delta removing every live id leaves exactly the new ones live. */
  lemma DeltaReplacesAll(store: DecorationStore, oldIds: set<DecorationId>, ds: seq<Decoration>)
    requires store.live == oldIds
    ensures DeltaDecorations(store, oldIds, ds).0.live == DeltaDecorations(store, oldIds, ds).1
  {
  }

  /** Applying a result replaces the highlighter's decorations: the new ids
      are disjoint from the old ones, and there are as many as the result
      has ranges, or none when it has more. */
  lemma ApplyResultReplaces(c: Controller, h: Highlighter, info: HighlightResult)
    requires Valid(c) && c.highlighter == Some(h)
    ensures var c' := ApplyResult(c, h, info);
            && (info.hasMore ==> LiveIds(c') == {})
            && (!info.hasMore ==> |LiveIds(c')| == |info.ranges|)
            && LiveIds(c) !! LiveIds(c')
  {
    var c' := ApplyResult(c, h, info);
    forall id | id in LiveIds(c) ensures id !in LiveIds(c') {
      assert id in c.store.live;
    }
  }

  /** Removes every decoration of the highlighter, as `dispose` and the
      "might not contain non-basic ASCII" shortcut of `_update` do. */
  function ClearDecorations(c: Controller, h: Highlighter): (c': Controller)
    requires Valid(c) && c.highlighter == Some(h)
    ensures Valid(c')
    ensures c'.store.live == {} && c'.highlighter == Some(h.(decorationIds := {}))
    ensures c'.banner == c.banner && c'.bannerClosed == c.bannerClosed && c'.versionId == c.versionId
  {
    var (store, ids) := DeltaDecorations(c.store, h.decorationIds, []);
    c.(store := store, highlighter := Some(h.(decorationIds := {})))
  }

  /** Disposes the current highlighter, removing its decorations. */
  function DisposeHighlighter(c: Controller): (c': Controller)
    requires Valid(c)
    ensures Valid(c')
    ensures c'.highlighter.None? && c'.store.live == {}
    ensures c'.banner == c.banner && c'.bannerClosed == c.bannerClosed
    ensures c'.hasModel == c.hasModel && c'.versionId == c.versionId && c'.rawOptions == c.rawOptions
  {
    if c.highlighter.None? then
      c
    else
      var c1 := ClearDecorations(c, c.highlighter.value);
      c1.(highlighter := None)
  }

  /** `_updateHighlighter`: hides the banner, disposes the old highlighter,
      and builds a new one unless there is no model or all three categories
      resolve to off. The worker-backed strategy is used exactly when the
      worker can classify the model. */
  function UpdateHighlighter(c: Controller, env: Environment): (c': Controller)
    requires Valid(c)
    ensures Valid(c')
    ensures c'.banner == Hidden && c'.bannerClosed == c.bannerClosed
    ensures c'.store.live == {}
    ensures c'.highlighter.None? <==>
              !c.hasModel || FullyDisabled(ResolveOptions(env.trusted, c.rawOptions))
    ensures c'.highlighter.Some? ==>
              var h := c'.highlighter.value;
              && (h.strategy == WholeDocument <==> env.workerAvailable)
              && h.options == ToHighlighterOptions(ResolveOptions(env.trusted, c.rawOptions), env.osLocale, env.uiLanguage)
              && h.updatePending && h.inFlight == []
  {
    var c1 := c.(banner := UpdateState(c.banner, c.bannerClosed, None));
    var c2 := DisposeHighlighter(c1);
    if !c2.hasModel then c2
    else
      var resolved := ResolveOptions(env.trusted, c.rawOptions);
      if FullyDisabled(resolved) then c2
      else
        var strategy := if env.workerAvailable then WholeDocument else Viewport;
        var options := ToHighlighterOptions(resolved, env.osLocale, env.uiLanguage);
        c2.(highlighter := Some(Highlighter(strategy, options, {}, true, [])))
  }

  /** The constructor: reads the options and builds the first highlighter. */
  function Init(options: RawOptions, hasModel: bool, versionId: nat, env: Environment): (c: Controller)
    ensures Valid(c) && !c.bannerClosed && c.banner == Hidden
  {
    UpdateHighlighter(Controller(options, hasModel, versionId, None, false, Hidden, DecorationStore([], {}), map[]), env)
  }

  /** `_update` of either strategy, run when the scheduler fires: a model
      without non-basic ASCII loses every decoration; the whole-document
      highlighter asks the worker, capturing the model's version, and
      changes nothing else yet; the viewport highlighter applies the
      aggregate of the visible ranges at once. */
  function RunUpdate(c: Controller, h: Highlighter, mightContainNonBasicAscii: bool,
                     visibleResults: seq<HighlightResult>): (c': Controller)
    requires Valid(c) && c.highlighter == Some(h)
    ensures Valid(c')
    ensures c'.bannerClosed == c.bannerClosed && c'.versionId == c.versionId
    ensures !mightContainNonBasicAscii ==>
              && LiveIds(c') == {} && c'.banner == c.banner
              && c'.highlighter == Some(h.(decorationIds := {}))
    ensures mightContainNonBasicAscii && h.strategy == WholeDocument ==>
              && c'.highlighter == Some(h.(inFlight := h.inFlight + [c.versionId]))
              && c'.banner == c.banner && c'.store == c.store && LiveIds(c') == LiveIds(c)
    ensures mightContainNonBasicAscii && h.strategy == Viewport ==>
              var total := Aggregate(visibleResults);
              && c'.banner == UpdateState(c.banner, c.bannerClosed, Some(total))
              && c'.store.history == c.store.history + Decorated(total, HighlighterStyle(h.options))
              && LiveIds(c') == IdBlock(|c.store.history|, |Decorated(total, HighlighterStyle(h.options))|)
              && c'.highlighter.Some? && c'.highlighter.value.inFlight == h.inFlight
  {
    if !mightContainNonBasicAscii then ClearDecorations(c, h)
    else if h.strategy == WholeDocument then
      c.(highlighter := Some(h.(inFlight := h.inFlight + [c.versionId])))
    else
      ApplyResult(c, h, Aggregate(visibleResults))
  }

  /** The viewport highlighter's update, when the visible ranges overflow
      and the banner is not dismissed, shows the non-basic ASCII banner
      whatever category dominates (see `ViewportBannerNamesNonBasicAscii`). */
  lemma ViewportUpdateNamesNonBasicAscii(c: Controller, h: Highlighter, visibleResults: seq<HighlightResult>)
    requires Valid(c) && c.highlighter == Some(h) && h.strategy == Viewport && !c.bannerClosed
    requires AnyHasMore(visibleResults)
    ensures RunUpdate(c, h, true, visibleResults).banner == Shown(NonBasicAsciiCategory)
  {
    ViewportBannerNamesNonBasicAscii(visibleResults, c.banner);
  }

  /** Takes worker call number `k` off the in-flight list. */
  function DropCall(c: Controller, k: nat): (c': Controller)
    requires Valid(c) && c.highlighter.Some? && k < |c.highlighter.value.inFlight|
    ensures Valid(c') && c'.highlighter.Some?
    ensures var h := c.highlighter.value;
            c' == c.(highlighter := Some(h.(inFlight := h.inFlight[..k] + h.inFlight[k + 1..])))
  {
    var h := c.highlighter.value;
    var f := h.inFlight;
    var g := f[..k] + f[k + 1..];
    assert forall i :: 0 <= i < |g| ==> g[i] == if i < k then f[i] else f[i + 1];
    c.(highlighter := Some(h.(inFlight := g)))
  }

  /** The completion of worker call number `k`: a result whose captured
      version no longer matches the model is dropped; otherwise it is
      applied. */
  function WorkerResult(c: Controller, k: nat, info: HighlightResult): (c': Controller)
    requires Valid(c) && c.highlighter.Some? && k < |c.highlighter.value.inFlight|
    ensures Valid(c')
  {
    var c1 := DropCall(c, k);
    if c.highlighter.value.inFlight[k] != c.versionId then c1
    else ApplyResult(c1, c1.highlighter.value, info)
  }

  /** The controller's reaction to one event. */
  function Step(c: Controller, e: Event): (c': Controller)
    requires Valid(c)
    ensures Valid(c')
  {
    match e
    case ModelChanged(hasModel, versionId, env) =>
      var c1 := DisposeHighlighter(c);
      UpdateHighlighter(c1.(bannerClosed := false, hasModel := hasModel, versionId := versionId), env)
    case TrustChanged(env) =>
      UpdateHighlighter(c, env)
    case ConfigurationChanged(changed, options, env) =>
      if changed then UpdateHighlighter(c.(rawOptions := options), env) else c
    case ContentChanged =>
      var c1 := c.(versionId := c.versionId + 1);
      if c.highlighter.Some? then
        c1.(highlighter := Some(c.highlighter.value.(updatePending := true)))
      else c1
    case ViewChanged =>
      if c.highlighter.Some? && c.highlighter.value.strategy == Viewport then
        c.(highlighter := Some(c.highlighter.value.(updatePending := true)))
      else c
    case SchedulerFired(mightContain, visible) =>
      if c.highlighter.Some? && c.highlighter.value.updatePending then
        var h := c.highlighter.value.(updatePending := false);
        RunUpdate(c.(highlighter := Some(h)), h, mightContain, visible)
      else c
    case WorkerAnswered(k, info) =>
      if c.highlighter.Some? && k < |c.highlighter.value.inFlight| then
        WorkerResult(c, k, info)
      else c
    case BannerDismissed =>
      c.(bannerClosed := true, banner := Hidden)
  }

  /** `UnicodeHighlighterDecorationInfo`. */
  datatype DecorationInfo = DecorationInfo(reason: Reason, inComment: bool, inString: bool)

  /** The text model's and the classifier's answers that `getDecorationInfo`
      consults: where the model has moved a decoration by now
      (`getDecorationRange`; edits shift decorations, which the store's
      creation-time ranges do not show), visibility, comment and string
      membership of a decoration, the text under a range, and the reason
      classifier. */
  datatype ModelQueries = ModelQueries(
    decorationRange: DecorationId -> Range,
    isVisible: Decoration -> bool,
    inComment: Decoration -> bool,
    inString: Decoration -> bool,
    valueInRange: Range -> string,
    computeReason: (string, HighlighterOptions) -> Reason)

  /** The decoration `getDecorationInfo` builds for `id`: its current range
      with the highlighter's style. */
  function CurrentDecoration(h: Highlighter, id: DecorationId, q: ModelQueries): Decoration {
    Decoration(q.decorationRange(id), HighlighterStyle(h.options))
  }

  /** `getDecorationInfo(id)`: nothing without a highlighter, for an id the
      highlighter does not track, or for a decoration that is not visible;
      otherwise the reason recomputed from the live text under the
      decoration's current range, with its comment and string membership. */
  function GetDecorationInfo(c: Controller, id: DecorationId, q: ModelQueries): (r: Option<DecorationInfo>)
    requires Valid(c)
    ensures c.highlighter.None? || id !in LiveIds(c) ==> r.None?
    ensures c.highlighter.Some? && id in LiveIds(c) ==>
              var d := CurrentDecoration(c.highlighter.value, id, q);
              && (r.Some? <==> q.isVisible(d))
              && (r.Some? ==> r.value == DecorationInfo(
                    q.computeReason(q.valueInRange(q.decorationRange(id)), c.highlighter.value.options),
                    q.inComment(d), q.inString(d)))
  {
    if c.highlighter.None? then None
    else
      var h := c.highlighter.value;
      if id !in h.decorationIds then None
      else
        var range := q.decorationRange(id);
        var d := Decoration(range, GetDecoration(c.styles, !h.options.includeComments, !h.options.includeStrings).0);
        if !q.isVisible(d) then None
        else Some(DecorationInfo(q.computeReason(q.valueInRange(range), h.options), q.inComment(d), q.inString(d)))
  }

  /** Two text models that agree on everything but where a tracked
      decoration now lies can give different answers: the info follows the
      decoration's current range, not the range it was created with. */
  lemma DecorationInfoFollowsMoves(c: Controller, id: DecorationId, q: ModelQueries, moved: Range)
    requires Valid(c) && c.highlighter.Some? && id in LiveIds(c)
    requires q.isVisible(CurrentDecoration(c.highlighter.value, id, q))
    ensures var q' := q.(decorationRange := (i: DecorationId) => if i == id then moved else q.decorationRange(i));
            q'.isVisible(CurrentDecoration(c.highlighter.value, id, q')) ==>
              GetDecorationInfo(c, id, q').value.reason
                == q.computeReason(q.valueInRange(moved), c.highlighter.value.options)
  {
  }

  /** When all three categories resolve to off, rebuilding the highlighter
      leaves none, so `getDecorationInfo` answers nothing for every id. */
  lemma DisabledHasNoHighlighter(c: Controller, env: Environment, q: ModelQueries)
    requires Valid(c)
    requires FullyDisabled(ResolveOptions(env.trusted, c.rawOptions))
    ensures UpdateHighlighter(c, env).highlighter.None?
    ensures forall id :: GetDecorationInfo(UpdateHighlighter(c, env), id, q).None?
  {
  }

  /** A worker answer whose captured version differs from the live one
      changes neither the banner, nor the decorations, nor the tracked ids:
      only the answered call leaves the in-flight list. */
  lemma StaleResultIgnored(c: Controller, k: nat, info: HighlightResult)
    requires Valid(c) && c.highlighter.Some?
    requires k < |c.highlighter.value.inFlight| && c.highlighter.value.inFlight[k] != c.versionId
    ensures var c' := Step(c, WorkerAnswered(k, info));
            && c'.banner == c.banner && c'.bannerClosed == c.bannerClosed
            && c'.store == c.store && c'.styles == c.styles
            && LiveIds(c') == LiveIds(c)
            && |c'.highlighter.value.inFlight| == |c.highlighter.value.inFlight| - 1
  {
  }

  /** A worker answer captured at the live version is applied: the banner
      follows it and the decorations are exactly its ranges, or none when it
      has more. */
  lemma CurrentResultApplied(c: Controller, k: nat, info: HighlightResult)
    requires Valid(c) && c.highlighter.Some?
    requires k < |c.highlighter.value.inFlight| && c.highlighter.value.inFlight[k] == c.versionId
    ensures var c' := Step(c, WorkerAnswered(k, info));
            && c'.banner == UpdateState(c.banner, c.bannerClosed, Some(info))
            && LiveIds(c) !! LiveIds(c')
            && (info.hasMore ==> LiveIds(c') == {})
            && (!info.hasMore ==> |LiveIds(c')| == |info.ranges|)
            && c'.store.history == c.store.history + Decorated(info, HighlighterStyle(c.highlighter.value.options))
            && LiveIds(c') == IdBlock(|c.store.history|, |Decorated(info, HighlighterStyle(c.highlighter.value.options))|)
  {
    var c1 := DropCall(c, k);
    StepAnswer(c, k, info);
    ApplyResultReplaces(c1, c1.highlighter.value, info);
  }

  /** A worker answer for a pending call is handled by `WorkerResult`. */
  lemma StepAnswer(c: Controller, k: nat, info: HighlightResult)
    requires Valid(c) && c.highlighter.Some? && k < |c.highlighter.value.inFlight|
    ensures Step(c, WorkerAnswered(k, info)) == WorkerResult(c, k, info)
  {
  }

  /** `_bannerClosed` is set only by the banner's close callback and cleared
      only by a model change; while it is set the banner stays hidden. */
  lemma BannerDismissalIsSticky(c: Controller, e: Event)
    requires Valid(c)
    ensures !c.bannerClosed && Step(c, e).bannerClosed ==> e.BannerDismissed?
    ensures c.bannerClosed && !Step(c, e).bannerClosed ==> e.ModelChanged?
    ensures c.bannerClosed && !e.ModelChanged? ==> Step(c, e).banner == Hidden
  {
  }

  /** Edits and view changes only (re)schedule the update: a second one
      before the scheduler fires adds nothing but the version bump. This
      records only that the 250 ms scheduler collapses repeated requests
      into one pending run. */
  lemma ScheduleCollapses(c: Controller)
    requires Valid(c)
    ensures Step(Step(c, ViewChanged), ViewChanged) == Step(c, ViewChanged)
    ensures Step(Step(c, ContentChanged), ContentChanged).highlighter == Step(c, ContentChanged).highlighter
  {
  }

  /** Applying the same result twice yields the same banner and the same
      decorations, in the same order, as applying it once. */
  lemma ApplyResultIdempotent(c: Controller, h: Highlighter, info: HighlightResult)
    requires Valid(c) && c.highlighter == Some(h)
    ensures var c1 := ApplyResult(c, h, info);
            var c2 := ApplyResult(c1, c1.highlighter.value, info);
            && c2.banner == c1.banner
            && |LiveIds(c2)| == |LiveIds(c1)|
            && c2.store.history[|c1.store.history|..] == c1.store.history[|c.store.history|..]
  {
    var c1 := ApplyResult(c, h, info);
    var c2 := ApplyResult(c1, c1.highlighter.value, info);
    var d := Decorated(info, HighlighterStyle(h.options));
    assert c1.store.history[|c.store.history|..] == d;
    assert c2.store.history[|c1.store.history|..] == d;
  }

  /** The completion callback of a worker call whose highlighter has been
      disposed meanwhile, as written: the version check still passes when the
      model was not edited, so it calls `_updateState` and adds the result's
      decorations under the disposed highlighter's emptied id set. */
  function OrphanResultAsWritten(c: Controller, style: DecorationOptions, info: HighlightResult): (c': Controller)
    ensures c'.banner == UpdateState(c.banner, c.bannerClosed, Some(info))
    ensures c'.highlighter == c.highlighter
    ensures c'.store.live == c.store.live + IdBlock(|c.store.history|, |Decorated(info, style)|)
  {
    var delta := DeltaDecorations(c.store, {}, Decorated(info, style));
    c.(banner := UpdateState(c.banner, c.bannerClosed, Some(info)), store := delta.0)
  }

  /** Turning every category off while a worker call is pending disposes
      the highlighter, yet its late answer puts decorations into the model
      that no highlighter tracks (so none will ever remove them) and can
      raise the banner of a disabled feature. */
  lemma OrphanResultLeaksDecorations(c: Controller, disabled: RawOptions, env: Environment, info: HighlightResult)
    requires Valid(c) && c.highlighter.Some? && c.highlighter.value.inFlight == [c.versionId]
    requires FullyDisabled(ResolveOptions(env.trusted, disabled))
    requires !c.bannerClosed && !info.hasMore && |info.ranges| > 0
    ensures var off := Step(c, ConfigurationChanged(true, disabled, env));
            var late := OrphanResultAsWritten(off, HighlighterStyle(c.highlighter.value.options), info);
            && off.highlighter.None? && off.versionId == c.versionId
            && late.store.live != {} && LiveIds(late) == {}
            && !Valid(late)
  {
    var off := Step(c, ConfigurationChanged(true, disabled, env));
    var style := HighlighterStyle(c.highlighter.value.options);
    var late := OrphanResultAsWritten(off, style, info);
    assert |Decorated(info, style)| > 0;
    assert |off.store.history| in late.store.live;
  }

  /** The intended behaviour, which `Step` follows: a worker answer reaching
      a controller without a highlighter changes nothing, so once the
      feature is off no decoration of it stays live. */
  lemma DisposedHighlighterAnswersDropped(c: Controller, k: nat, info: HighlightResult)
    requires Valid(c) && c.highlighter.None?
    ensures Step(c, WorkerAnswered(k, info)) == c
    ensures Step(c, WorkerAnswered(k, info)).store.live == {}
  {
  }
}

=== FILE: decoration_styles.dfy ===
/** `Decorations.getDecoration`: the process-wide cache of decoration styles,
    keyed by the two "hide in comments / hide in strings" flags. */
module DecorationStyles {

  /** The parts of `ModelDecorationOptions` this model distinguishes. */
  datatype DecorationOptions = DecorationOptions(
    description: string,
    className: string,
    showIfCollapsed: bool,
    hideInCommentTokens: bool,
    hideInStringTokens: bool)

  /** The style `getDecoration` creates on a cache miss. */
  function StyleFor(hideInComments: bool, hideInStrings: bool): DecorationOptions {
    DecorationOptions("unicode-highlight", "unicode-highlight", true, hideInComments, hideInStrings)
  }

  /** JavaScript's rendering of a boolean inside a template string. */
  function BoolText(b: bool): string {
    if b then "true" else "false"
  }

  /** The cache key `${hideInComments}${hideInStrings}`. */
  function CacheKey(hideInComments: bool, hideInStrings: bool): string {
    BoolText(hideInComments) + BoolText(hideInStrings)
  }

  /** Distinct flag pairs never share a key, so the cache never hands out the
      style of another pair. */
  lemma CacheKeyInjective(c1: bool, s1: bool, c2: bool, s2: bool)
    ensures CacheKey(c1, s1) == CacheKey(c2, s2) <==> c1 == c2 && s1 == s2
  {
    if CacheKey(c1, s1) == CacheKey(c2, s2) {
      var k := CacheKey(c1, s1);
      assert k[0] == BoolText(c1)[0] == BoolText(c2)[0];
      assert c1 == c2;
      var n := |BoolText(c1)|;
      assert k[n..] == BoolText(s1);
      assert CacheKey(c2, s2)[n..] == BoolText(s2);
    }
  }

  /** The four keys the cache can ever hold. */
  function AllKeys(): set<string> {
    {CacheKey(true, true), CacheKey(true, false), CacheKey(false, true), CacheKey(false, false)}
  }

  type StyleCache = map<string, DecorationOptions>

  /** Every cached entry sits under one of the four keys and holds the style
      made for that key's flags. */
  predicate ValidCache(cache: StyleCache) {
    && cache.Keys <= AllKeys()
    && forall c: bool, s: bool :: CacheKey(c, s) in cache ==> cache[CacheKey(c, s)] == StyleFor(c, s)
  }

  /** A valid cache never grows past the 2 x 2 flag combinations. */
  lemma ValidCacheBounded(cache: StyleCache)
    requires ValidCache(cache)
    ensures |cache| <= 4
  {
    assert |AllKeys()| <= 4;
    assert cache.Keys <= AllKeys();
    SubsetCardinality(cache.Keys, AllKeys());
    assert |cache.Keys| == |cache|;
  }

  lemma SubsetCardinality<T>(a: set<T>, b: set<T>)
    requires a <= b
    ensures |a| <= |b|
  {
    assert b == a + (b - a);
  }

  /** `getDecoration`: the cached style for the flags, created and stored on
      the first request. Returns the style and the cache afterwards. */
  function GetDecoration(cache: StyleCache, hideInComments: bool, hideInStrings: bool): (r: (DecorationOptions, StyleCache))
    ensures ValidCache(cache) ==> ValidCache(r.1)
    ensures ValidCache(cache) ==> r.0 == StyleFor(hideInComments, hideInStrings)
    ensures r.1.Keys == cache.Keys + {CacheKey(hideInComments, hideInStrings)}
    ensures forall k :: k in cache ==> r.1[k] == cache[k]
    ensures CacheKey(hideInComments, hideInStrings) in r.1 && r.1[CacheKey(hideInComments, hideInStrings)] == r.0
  {
    var key := CacheKey(hideInComments, hideInStrings);
    if key in cache then
      (cache[key], cache)
    else
      var options := StyleFor(hideInComments, hideInStrings);
      var cache' := cache[key := options];
      assert ValidCache(cache) ==> ValidCache(cache') by {
        forall c: bool, s: bool | ValidCache(cache) && CacheKey(c, s) in cache'
          ensures cache'[CacheKey(c, s)] == StyleFor(c, s)
        {
          CacheKeyInjective(c, s, hideInComments, hideInStrings);
        }
      }
      (options, cache')
  }

  /** Asking twice for the same flags returns the same style and leaves the
      cache as the first call left it. */
  lemma GetDecorationIdempotent(cache: StyleCache, hideInComments: bool, hideInStrings: bool)
    ensures var (o1, c1) := GetDecoration(cache, hideInComments, hideInStrings);
            GetDecoration(c1, hideInComments, hideInStrings) == (o1, c1)
  {
  }
}

=== FILE: editor_types.dfy ===
/** Values shared by the highlighter and the hover: editor ranges, markdown
    strings, decoration messages, classifier results and reasons. */
module EditorTypes {

  /** A Unicode code point, as returned by `String.prototype.codePointAt`. */
  type CodePoint = n: int | 0 <= n <= 0x10FFFF

  /** The decoration handle the text model hands out. */
  type DecorationId = nat

  /** An editor range: 1-based line numbers and columns. */
  datatype Range = Range(startLineNumber: int, startColumn: int, endLineNumber: int, endColumn: int)

  /** The `Range` constructor: when the start lies after the end, the two
      positions are swapped, so every constructed range is ordered. */
  function MakeRange(startLine: int, startColumn: int, endLine: int, endColumn: int): (r: Range)
    ensures Ordered(r)
    ensures PositionBefore(startLine, startColumn, endLine, endColumn) ==>
              r == Range(startLine, startColumn, endLine, endColumn)
    ensures !PositionBefore(startLine, startColumn, endLine, endColumn) ==>
              r == Range(endLine, endColumn, startLine, startColumn)
  {
    if startLine > endLine || (startLine == endLine && startColumn > endColumn) then
      Range(endLine, endColumn, startLine, startColumn)
    else
      Range(startLine, startColumn, endLine, endColumn)
  }

  /** Position (l1, c1) is at or before position (l2, c2). */
  predicate PositionBefore(l1: int, c1: int, l2: int, c2: int) {
    l1 < l2 || (l1 == l2 && c1 <= c2)
  }

  /** A range whose start does not lie after its end. */
  predicate Ordered(r: Range) {
    PositionBefore(r.startLineNumber, r.startColumn, r.endLineNumber, r.endColumn)
  }

  /** A markdown string; only its text matters to this model. */
  datatype Markdown = Markdown(value: string)

  /** `isEmptyMarkdownString` on one markdown string: its value is empty. */
  predicate IsEmptyMarkdown(m: Markdown) {
    |m.value| == 0
  }

  /** A decoration's `hoverMessage` option: absent, one string or an array. */
  datatype HoverMessage = NoMessage | OneMessage(message: Markdown) | ManyMessages(messages: seq<Markdown>)

  /** `isEmptyMarkdownString` on a hover message: an absent message is empty,
      an array is empty when every element is (so the empty array is). */
  predicate IsEmptyMessage(h: HoverMessage) {
    match h
    case NoMessage => true
    case OneMessage(m) => IsEmptyMarkdown(m)
    case ManyMessages(ms) => AllEmpty(ms)
  }

  predicate AllEmpty(ms: seq<Markdown>) {
    forall i :: 0 <= i < |ms| ==> IsEmptyMarkdown(ms[i])
  }

  /** `asArray`: a single message becomes a one-element array. */
  function AsArray(h: HoverMessage): (r: seq<Markdown>)
    ensures h.OneMessage? ==> r == [h.message]
    ensures h.ManyMessages? ==> r == h.messages
    ensures AllEmpty(r) <==> IsEmptyMessage(h)
  {
    match h
    case NoMessage => []
    case OneMessage(m) => assert [m][0] == m; [m]
    case ManyMessages(ms) => ms
  }

  /** A decoration of the text model as the hover sees it. */
  datatype ModelDecoration = ModelDecoration(id: DecorationId, range: Range, hoverMessage: HoverMessage)

  /** `IUnicodeHighlightsResult`: the offending ranges, the three per-category
      counts, and whether the classifier stopped early. */
  datatype HighlightResult = HighlightResult(
    ranges: seq<Range>,
    ambiguousCharacterCount: nat,
    invisibleCharacterCount: nat,
    nonBasicAsciiCharacterCount: nat,
    hasMore: bool)

  /** `UnicodeHighlighterReason`: why one character is highlighted. */
  datatype Reason =
    | Ambiguous(confusableWith: CodePoint, notAmbiguousInLocales: seq<string>)
    | Invisible
    | NonBasicAscii
}

=== FILE: exclude_options.dfy ===
/** The "Adjust settings" menu of `ShowExcludeOptions` and the map merges
    that precede the configuration writes of
    `excludeCharFromBeingHighlighted` and `excludeLocaleFromBeingHighlighted`. */
module ExcludeOptions {
  import opened EditorTypes
  import opened CodePointFormat
  import opened HighlightOptions

  /** `ShowExcludeOptionsArgs`: the hovered character and why it is shown. */
  datatype ShowExcludeOptionsArgs = ShowExcludeOptionsArgs(codePoint: CodePoint, reason: Reason, inComment: bool, inString: bool)

  /** One entry of the quick pick, identified by what running it changes. */
  datatype ExcludeItem =
    | AllowLocale(locale: string)
    | ExcludeCharacter(codePoint: CodePoint, title: string)
    | DisableInComments
    | DisableInStrings
    | DisableAmbiguous
    | DisableInvisible
    | DisableNonBasicAscii

  /** `getExcludeCharFromBeingHighlightedLabel`: the unpadded code point,
      with the character itself unless it is invisible. */
  function ExcludeCharLabel(cp: CodePoint, isInvisible: bool): string {
    if isInvisible then "Exclude U+" + ToHex(cp) + " (invisible character) from being highlighted"
    else "Exclude U+" + ToHex(cp) + " \"" + [CharOf(cp)] + "\" from being highlighted"
  }

  /** The disabling action that matches a reason's kind. */
  function DisableItemFor(reason: Reason): ExcludeItem {
    match reason
    case Ambiguous(_, _) => DisableAmbiguous
    case Invisible => DisableInvisible
    case NonBasicAscii => DisableNonBasicAscii
  }

  /** One "allow this locale" entry per locale, in order. */
  function LocaleItems(locales: seq<string>): (r: seq<ExcludeItem>)
    ensures |r| == |locales| && forall i :: 0 <= i < |locales| ==> r[i] == AllowLocale(locales[i])
  {
    seq(|locales|, i requires 0 <= i < |locales| => AllowLocale(locales[i]))
  }

  /** The menu `ShowExcludeOptions.run` offers, in order: the locale entries
      (ambiguous characters only), the exclude-character entry, at most one
      of disable-in-comments / disable-in-strings (comments first), and the
      disable entry for the reason's kind. */
  function ExcludeMenu(args: ShowExcludeOptionsArgs, isInvisible: CodePoint -> bool): (r: seq<ExcludeItem>)
    ensures var l := if args.reason.Ambiguous? then |args.reason.notAmbiguousInLocales| else 0;
            var scoped := if args.inComment || args.inString then 1 else 0;
            && |r| == l + 2 + scoped
            && (forall i :: 0 <= i < l ==> r[i] == AllowLocale(args.reason.notAmbiguousInLocales[i]))
            && r[l] == ExcludeCharacter(args.codePoint, ExcludeCharLabel(args.codePoint, isInvisible(args.codePoint)))
            && (args.inComment ==> r[l + 1] == DisableInComments)
            && (!args.inComment && args.inString ==> r[l + 1] == DisableInStrings)
            && r[|r| - 1] == DisableItemFor(args.reason)
  {
    var cp := args.codePoint;
    var locales := if args.reason.Ambiguous? then LocaleItems(args.reason.notAmbiguousInLocales) else [];
    var exclude := [ExcludeCharacter(cp, ExcludeCharLabel(cp, isInvisible(cp)))];
    var scoped := if args.inComment then [DisableInComments] else if args.inString then [DisableInStrings] else [];
    locales + exclude + scoped + [DisableItemFor(args.reason)]
  }

  /** The entry kinds counted by the menu's shape lemma. */
  datatype ItemKind = LocaleKind | CharacterKind | ScopeKind | CategoryKind

  function KindOf(item: ExcludeItem): ItemKind {
    match item
    case AllowLocale(_) => LocaleKind
    case ExcludeCharacter(_, _) => CharacterKind
    case DisableInComments => ScopeKind
    case DisableInStrings => ScopeKind
    case _ => CategoryKind
  }

  /** How many entries of `items` are of kind `k`. */
  function CountKind(items: seq<ExcludeItem>, k: ItemKind): nat
    decreases |items|
  {
    if |items| == 0 then 0
    else (if KindOf(items[0]) == k then 1 else 0) + CountKind(items[1..], k)
  }

  lemma {:induction false} CountKindAppend(a: seq<ExcludeItem>, b: seq<ExcludeItem>, k: ItemKind)
    ensures CountKind(a + b, k) == CountKind(a, k) + CountKind(b, k)
    decreases |a|
  {
    if |a| == 0 {
      assert a + b == b;
    } else {
      assert (a + b)[0] == a[0];
      assert (a + b)[1..] == a[1..] + b;
      CountKindAppend(a[1..], b, k);
    }
  }

  lemma {:induction false} CountLocaleItems(locales: seq<string>, k: ItemKind)
    ensures CountKind(LocaleItems(locales), k) == if k == LocaleKind then |locales| else 0
    decreases |locales|
  {
    if |locales| > 0 {
      assert LocaleItems(locales)[1..] == LocaleItems(locales[1..]);
      CountLocaleItems(locales[1..], k);
    }
  }

  /** The menu always has exactly one exclude-character entry and exactly
      one category entry, a scope entry exactly when the character sits in a
      comment or string, and locale entries only for ambiguous characters. */
  lemma ExcludeMenuShape(args: ShowExcludeOptionsArgs, isInvisible: CodePoint -> bool)
    ensures var menu := ExcludeMenu(args, isInvisible);
            && CountKind(menu, CharacterKind) == 1
            && CountKind(menu, CategoryKind) == 1
            && CountKind(menu, ScopeKind) == (if args.inComment || args.inString then 1 else 0)
            && CountKind(menu, LocaleKind) ==
                 (if args.reason.Ambiguous? then |args.reason.notAmbiguousInLocales| else 0)
  {
    var cp := args.codePoint;
    var locales := if args.reason.Ambiguous? then LocaleItems(args.reason.notAmbiguousInLocales) else [];
    var exclude := [ExcludeCharacter(cp, ExcludeCharLabel(cp, isInvisible(cp)))];
    var scoped := if args.inComment then [DisableInComments] else if args.inString then [DisableInStrings] else [];
    var last := [DisableItemFor(args.reason)];
    assert ExcludeMenu(args, isInvisible) == locales + exclude + scoped + last;
    forall k: ItemKind
      ensures CountKind(ExcludeMenu(args, isInvisible), k) ==
                CountKind(locales, k) + CountKind(exclude, k) + CountKind(scoped, k) + CountKind(last, k)
    {
      CountKindAppend(locales + exclude + scoped, last, k);
      CountKindAppend(locales + exclude, scoped, k);
      CountKindAppend(locales, exclude, k);
    }
    assert KindOf(DisableItemFor(args.reason)) == CategoryKind;
    forall k: ItemKind
      ensures CountKind(exclude, k) == (if k == CharacterKind then 1 else 0)
      ensures CountKind(last, k) == (if k == CategoryKind then 1 else 0)
      ensures CountKind(scoped, k) == (if k == ScopeKind && (args.inComment || args.inString) then 1 else 0)
    {
      CountSingleton(exclude[0], k);
      CountSingleton(last[0], k);
      if |scoped| > 0 {
        CountSingleton(scoped[0], k);
      }
    }
    forall k: ItemKind
      ensures CountKind(locales, k) == if args.reason.Ambiguous? && k == LocaleKind then |args.reason.notAmbiguousInLocales| else 0
    {
      if args.reason.Ambiguous? {
        CountLocaleItems(args.reason.notAmbiguousInLocales, k);
      }
    }
  }

  /** A one-entry list counts its entry's kind once. */
  lemma CountSingleton(item: ExcludeItem, k: ItemKind)
    ensures CountKind([item], k) == if KindOf(item) == k then 1 else 0
  {
    assert [item][1..] == [];
  }

  /** A configuration value as read back: an object of flags, or anything
      else (absent, null, a string, ...). */
  datatype ConfigValue = ObjectValue(entries: map<string, bool>) | OtherValue

  /** The object the merge starts from: the existing one, or `{}`. */
  function StartingEntries(existing: ConfigValue): map<string, bool> {
    if existing.ObjectValue? then existing.entries else map[]
  }

  /** Sets `value[key] = true` for every key, in order. */
  method MarkAllowed(start: map<string, bool>, keys: seq<string>) returns (value: map<string, bool>)
    ensures forall k :: k in value <==> k in start || k in keys
    ensures forall k :: k in keys ==> value[k]
    ensures forall k :: k in start && k !in keys ==> value[k] == start[k]
  {
    value := start;
    var i := 0;
    while i < |keys|
      invariant 0 <= i <= |keys|
      invariant forall k :: k in value <==> k in start || k in keys[..i]
      invariant forall k :: k in keys[..i] ==> value[k]
      invariant forall k :: k in start && k !in keys[..i] ==> value[k] == start[k]
    {
      assert keys[..i + 1] == keys[..i] + [keys[i]];
      value := value[keys[i] := true];
      i := i + 1;
    }
    assert keys[..i] == keys;
  }

  /** The merge of `excludeCharFromBeingHighlighted`: every given code point's
      character becomes an allowed key mapped to true; other existing
      entries are kept; a non-object existing value starts from `{}`. */
  method ExcludeCharFromBeingHighlighted(existing: ConfigValue, charCodes: seq<CodePoint>) returns (value: map<string, bool>)
    ensures forall c :: c in charCodes ==> [CharOf(c)] in value && value[[CharOf(c)]]
    ensures forall k :: k in value ==>
              k in StartingEntries(existing) || exists c :: c in charCodes && k == [CharOf(c)]
    ensures forall k :: k in StartingEntries(existing) && (forall c :: c in charCodes ==> k != [CharOf(c)]) ==>
              k in value && value[k] == StartingEntries(existing)[k]
  {
    var keys := seq(|charCodes|, i requires 0 <= i < |charCodes| => [CharOf(charCodes[i])]);
    assert forall c :: c in charCodes ==> [CharOf(c)] in keys by {
      forall c | c in charCodes ensures [CharOf(c)] in keys {
        var i :| 0 <= i < |charCodes| && charCodes[i] == c;
        assert keys[i] == [CharOf(c)];
      }
    }
    value := MarkAllowed(StartingEntries(existing), keys);
    forall k | k in value && k !in StartingEntries(existing)
      ensures exists c :: c in charCodes && k == [CharOf(c)]
    {
      var i :| 0 <= i < |keys| && keys[i] == k;
      assert charCodes[i] in charCodes;
    }
  }

  /** The merge of `excludeLocaleFromBeingHighlighted`: every given locale
      becomes a key mapped to true; other existing entries are kept; a
      non-object existing value starts from `{}`. */
  method ExcludeLocaleFromBeingHighlighted(existing: ConfigValue, locales: seq<string>) returns (value: map<string, bool>)
    ensures forall k :: k in value <==> k in StartingEntries(existing) || k in locales
    ensures forall l :: l in locales ==> value[l]
    ensures forall k :: k in StartingEntries(existing) && k !in locales ==> value[k] == StartingEntries(existing)[k]
  {
    value := MarkAllowed(StartingEntries(existing), locales);
  }

  /** Running one menu entry against the settings, written to the user
      target: an allow entry merges one key into the allowed characters or
      the allowed locales (the latter starting from the user-level value
      `userLocales`), a disable entry sets its setting to false. */
  method RunItem(item: ExcludeItem, raw: RawOptions, userLocales: ConfigValue) returns (r: RawOptions)
    ensures item.AllowLocale? ==>
              && r == raw.(allowedLocales := r.allowedLocales)
              && item.locale in r.allowedLocales && r.allowedLocales[item.locale]
              && forall k :: k in r.allowedLocales <==> k in StartingEntries(userLocales) || k == item.locale
    ensures item.ExcludeCharacter? ==>
              && r == raw.(allowedCharacters := r.allowedCharacters)
              && [CharOf(item.codePoint)] in r.allowedCharacters && r.allowedCharacters[[CharOf(item.codePoint)]]
              && (forall k :: k in raw.allowedCharacters && k != [CharOf(item.codePoint)] ==>
                    k in r.allowedCharacters && r.allowedCharacters[k] == raw.allowedCharacters[k])
              && (forall k :: k in r.allowedCharacters <==> k in raw.allowedCharacters || k == [CharOf(item.codePoint)])
    ensures item.DisableInComments? ==> r == raw.(includeComments := Fixed(false))
    ensures item.DisableInStrings? ==> r == raw.(includeStrings := Fixed(false))
    ensures item.DisableAmbiguous? ==> r == raw.(ambiguousCharacters := false)
    ensures item.DisableInvisible? ==> r == raw.(invisibleCharacters := false)
    ensures item.DisableNonBasicAscii? ==> r == raw.(nonBasicASCII := Fixed(false))
  {
    match item
    case AllowLocale(locale) =>
      var value := ExcludeLocaleFromBeingHighlighted(userLocales, [locale]);
      r := raw.(allowedLocales := value);
    case ExcludeCharacter(cp, _) =>
      var value := ExcludeCharFromBeingHighlighted(ObjectValue(raw.allowedCharacters), [cp]);
      r := raw.(allowedCharacters := value);
    case DisableInComments => r := raw.(includeComments := Fixed(false));
    case DisableInStrings => r := raw.(includeStrings := Fixed(false));
    case DisableAmbiguous => r := raw.(ambiguousCharacters := false);
    case DisableInvisible => r := raw.(invisibleCharacters := false);
    case DisableNonBasicAscii => r := raw.(nonBasicASCII := Fixed(false));
  }

  /** Picking the last entry of the menu switches the hovered character's
      category off, whatever the workspace trust. */
  method PickDisableEntry(args: ShowExcludeOptionsArgs, isInvisible: CodePoint -> bool,
                          raw: RawOptions, userLocales: ConfigValue, trusted: bool)
    returns (r: RawOptions)
    ensures args.reason.Ambiguous? ==> !ResolveOptions(trusted, r).ambiguousCharacters
    ensures args.reason.Invisible? ==> !ResolveOptions(trusted, r).invisibleCharacters
    ensures args.reason.NonBasicAscii? ==> !ResolveOptions(trusted, r).nonBasicASCII
  {
    var menu := ExcludeMenu(args, isInvisible);
    r := RunItem(menu[|menu| - 1], raw, userLocales);
  }

  /** Picking the exclude-character entry (it follows the locale entries)
      puts the hovered character among the classifier's allowed code points
      (for a code point a Dafny character can hold). */
  method PickExcludeCharacterEntry(args: ShowExcludeOptionsArgs, isInvisible: CodePoint -> bool,
                                   raw: RawOptions, userLocales: ConfigValue, trusted: bool,
                                   osLocale: string, uiLanguage: string)
    returns (r: RawOptions)
    ensures !(0xD800 <= args.codePoint <= 0xDFFF) ==>
              args.codePoint in ToHighlighterOptions(ResolveOptions(trusted, r), osLocale, uiLanguage).allowedCodePoints
  {
    var menu := ExcludeMenu(args, isInvisible);
    var pick := if args.reason.Ambiguous? then |args.reason.notAmbiguousInLocales| else 0;
    r := RunItem(menu[pick], raw, userLocales);
    var key := [CharOf(menu[pick].codePoint)];
    assert key in ResolveOptions(trusted, r).allowedCharacters && |key| > 0;
    if !(0xD800 <= args.codePoint <= 0xDFFF) {
      ExcludeCharacterIsOne(menu, pick, args, isInvisible);
    }
  }

  /** The only exclude-character entry of the menu names the hovered code point. */
  lemma ExcludeCharacterIsOne(menu: seq<ExcludeItem>, pick: nat, args: ShowExcludeOptionsArgs, isInvisible: CodePoint -> bool)
    requires menu == ExcludeMenu(args, isInvisible) && pick < |menu| && menu[pick].ExcludeCharacter?
    ensures menu[pick].codePoint == args.codePoint
  {
  }
}

=== FILE: highlight_options.dfy ===
/** Option resolution for the Unicode highlighter: the tri-state settings
    that may defer to workspace trust, the resolved booleans, the gate that
    switches the feature off, and the options handed to the classifier. */
module HighlightOptions {

  /** A setting that is a plain boolean or the `inUntrustedWorkspace`
      sentinel ("on exactly when the workspace is not trusted"). */
  datatype Setting = Fixed(value: bool) | InUntrustedWorkspace

  /** `InternalUnicodeHighlightOptions` as read from the editor configuration.
      The two maps are the `Record<string, true>` objects of allowed
      characters and allowed locales. */
  datatype RawOptions = RawOptions(
    nonBasicASCII: Setting,
    ambiguousCharacters: bool,
    invisibleCharacters: bool,
    includeComments: Setting,
    includeStrings: Setting,
    allowedCharacters: map<string, bool>,
    allowedLocales: map<string, bool>)

  /** The options after every trust sentinel has been replaced by a boolean. */
  datatype ResolvedOptions = ResolvedOptions(
    nonBasicASCII: bool,
    ambiguousCharacters: bool,
    invisibleCharacters: bool,
    includeComments: bool,
    includeStrings: bool,
    allowedCharacters: map<string, bool>,
    allowedLocales: map<string, bool>)

  /** `UnicodeHighlighterOptions`, the options the classifier receives. */
  datatype HighlighterOptions = HighlighterOptions(
    nonBasicASCII: bool,
    ambiguousCharacters: bool,
    invisibleCharacters: bool,
    includeComments: bool,
    includeStrings: bool,
    allowedCodePoints: set<int>,
    allowedLocales: set<string>)

  /** The sentinel stands for "not trusted"; a fixed value passes through. */
  function ResolveSetting(trusted: bool, s: Setting): (b: bool)
    ensures s == InUntrustedWorkspace ==> b == !trusted
    ensures s != InUntrustedWorkspace ==> s.Fixed? && b == s.value
  {
    match s
    case InUntrustedWorkspace => !trusted
    case Fixed(v) => v
  }

  /** `resolveOptions`: the three trust-sensitive settings become `!trusted`
      exactly when they hold the sentinel; everything else is copied. */
  function ResolveOptions(trusted: bool, raw: RawOptions): (r: ResolvedOptions)
    ensures raw.nonBasicASCII == InUntrustedWorkspace ==> r.nonBasicASCII == !trusted
    ensures raw.nonBasicASCII != InUntrustedWorkspace ==> r.nonBasicASCII == raw.nonBasicASCII.value
    ensures raw.includeComments == InUntrustedWorkspace ==> r.includeComments == !trusted
    ensures raw.includeComments != InUntrustedWorkspace ==> r.includeComments == raw.includeComments.value
    ensures raw.includeStrings == InUntrustedWorkspace ==> r.includeStrings == !trusted
    ensures raw.includeStrings != InUntrustedWorkspace ==> r.includeStrings == raw.includeStrings.value
    ensures r.ambiguousCharacters == raw.ambiguousCharacters
    ensures r.invisibleCharacters == raw.invisibleCharacters
    ensures r.allowedCharacters == raw.allowedCharacters
    ensures r.allowedLocales == raw.allowedLocales
  {
    ResolvedOptions(
      ResolveSetting(trusted, raw.nonBasicASCII),
      raw.ambiguousCharacters,
      raw.invisibleCharacters,
      ResolveSetting(trusted, raw.includeComments),
      ResolveSetting(trusted, raw.includeStrings),
      raw.allowedCharacters,
      raw.allowedLocales)
  }

  /** No setting of `raw` defers to workspace trust. */
  predicate TrustIndependent(raw: RawOptions) {
    && raw.nonBasicASCII != InUntrustedWorkspace
    && raw.includeComments != InUntrustedWorkspace
    && raw.includeStrings != InUntrustedWorkspace
  }

  /** Resolution depends on trust only through the sentinel, and an untrusted
      workspace never highlights less than a trusted one. */
  lemma TrustOnlyMatters(raw: RawOptions)
    ensures TrustIndependent(raw) <==> ResolveOptions(true, raw) == ResolveOptions(false, raw)
    ensures ResolveOptions(true, raw).nonBasicASCII ==> ResolveOptions(false, raw).nonBasicASCII
    ensures ResolveOptions(true, raw).includeComments ==> ResolveOptions(false, raw).includeComments
    ensures ResolveOptions(true, raw).includeStrings ==> ResolveOptions(false, raw).includeStrings
  {
  }

  /** The feature is fully off when none of the three categories is on. */
  predicate FullyDisabled(o: ResolvedOptions) {
    !o.nonBasicASCII && !o.ambiguousCharacters && !o.invisibleCharacters
  }

  /** A locale key as the highlighter reads it: `_os` names the operating
      system's locale, `_vscode` the editor's display language. */
  function MapLocale(key: string, osLocale: string, uiLanguage: string): (l: string)
    ensures key == "_os" ==> l == osLocale
    ensures key == "_vscode" ==> l == uiLanguage
    ensures key != "_os" && key != "_vscode" ==> l == key
  {
    if key == "_os" then osLocale
    else if key == "_vscode" then uiLanguage
    else key
  }

  /** The options `_updateHighlighter` hands to the classifier. Allowed
      characters and locales are taken from the KEYS of the configuration
      objects (a key whose value is `false` still counts); each character key
      contributes the code point of its first character. */
  function ToHighlighterOptions(o: ResolvedOptions, osLocale: string, uiLanguage: string): (h: HighlighterOptions)
    ensures h.nonBasicASCII == o.nonBasicASCII
    ensures h.ambiguousCharacters == o.ambiguousCharacters
    ensures h.invisibleCharacters == o.invisibleCharacters
    ensures h.includeComments == o.includeComments
    ensures h.includeStrings == o.includeStrings
    ensures forall k :: k in o.allowedCharacters && |k| > 0 ==> k[0] as int in h.allowedCodePoints
    ensures forall cp :: cp in h.allowedCodePoints ==>
              exists k :: k in o.allowedCharacters && |k| > 0 && k[0] as int == cp
    ensures forall k :: k in o.allowedLocales ==> MapLocale(k, osLocale, uiLanguage) in h.allowedLocales
    ensures forall l :: l in h.allowedLocales ==>
              exists k :: k in o.allowedLocales && MapLocale(k, osLocale, uiLanguage) == l
  {
    HighlighterOptions(
      o.nonBasicASCII,
      o.ambiguousCharacters,
      o.invisibleCharacters,
      o.includeComments,
      o.includeStrings,
      set k | k in o.allowedCharacters && |k| > 0 :: k[0] as int,
      set k | k in o.allowedLocales :: MapLocale(k, osLocale, uiLanguage))
  }
}

=== FILE: hover_render.dfy ===
/** `renderMarkdownHovers`: the parts are sorted by ordinal (a stable sort,
    since parts arrive asynchronously and out of order), then every
    non-empty markdown string of every part becomes one hover row. */
module HoverRender {
  import opened EditorTypes
  import opened MarkdownHoverParticipant

  /** Ordinals never decrease from left to right. */
  predicate SortedByOrdinal(s: seq<MarkdownHover>) {
    forall i, j :: 0 <= i < j < |s| ==> s[i].ordinal <= s[j].ordinal
  }

  /** Puts `x` before the first part whose ordinal is at least its own. */
  function Insert(x: MarkdownHover, s: seq<MarkdownHover>): (r: seq<MarkdownHover>)
    ensures multiset(r) == multiset(s) + multiset{x}
    ensures |r| == |s| + 1
    decreases |s|
  {
    if |s| == 0 || x.ordinal <= s[0].ordinal then [x] + s
    else
      assert s == [s[0]] + s[1..];
      [s[0]] + Insert(x, s[1..])
  }

  /** Insertion keeps parts sorted. */
  lemma {:induction false} InsertSorted(x: MarkdownHover, s: seq<MarkdownHover>)
    requires SortedByOrdinal(s)
    ensures SortedByOrdinal(Insert(x, s))
    decreases |s|
  {
    if |s| == 0 || x.ordinal <= s[0].ordinal {
      ConsSorted(x, s);
    } else {
      var rest := Insert(x, s[1..]);
      assert SortedByOrdinal(s[1..]);
      InsertSorted(x, s[1..]);
      InsertCons(x, s);
      forall p | p in rest ensures s[0].ordinal <= p.ordinal {
        assert p in multiset(rest);
        if p != x {
          assert p in multiset(s[1..]);
        }
      }
      ConsSorted(s[0], rest);
    }
  }

  /** A sorted sequence stays sorted behind a head no larger than any element. */
  lemma ConsSorted(h: MarkdownHover, t: seq<MarkdownHover>)
    requires SortedByOrdinal(t)
    requires forall p :: p in t ==> h.ordinal <= p.ordinal
    ensures SortedByOrdinal([h] + t)
  {
    var r := [h] + t;
    forall i, j | 0 <= i < j < |r| ensures r[i].ordinal <= r[j].ordinal {
      assert r[j] == t[j - 1];
      if i > 0 {
        assert r[i] == t[i - 1];
      }
    }
  }

  /** `hoverParts.sort((a, b) => a.ordinal - b.ordinal)`, as the stable
      sort JavaScript engines provide. */
  function SortByOrdinal(s: seq<MarkdownHover>): (r: seq<MarkdownHover>)
    ensures SortedByOrdinal(r)
    ensures multiset(r) == multiset(s)
    ensures |r| == |s|
    decreases |s|
  {
    if |s| == 0 then []
    else
      assert s == [s[0]] + s[1..];
      InsertSorted(s[0], SortByOrdinal(s[1..]));
      Insert(s[0], SortByOrdinal(s[1..]))
  }

  /** The parts of `s` with ordinal `k`, in order. */
  function WithOrdinal(s: seq<MarkdownHover>, k: int): (r: seq<MarkdownHover>)
    ensures |r| <= |s|
    decreases |s|
  {
    if |s| == 0 then []
    else (if s[0].ordinal == k then [s[0]] else []) + WithOrdinal(s[1..], k)
  }

  /** The filter keeps exactly the parts with ordinal `k`. */
  lemma {:induction false} WithOrdinalMembers(s: seq<MarkdownHover>, k: int)
    ensures forall p :: p in WithOrdinal(s, k) <==> p in s && p.ordinal == k
    decreases |s|
  {
    if |s| > 0 {
      WithOrdinalMembers(s[1..], k);
      assert forall p :: p in s <==> p == s[0] || p in s[1..];
    }
  }

  lemma {:induction false} InsertWithOrdinal(x: MarkdownHover, s: seq<MarkdownHover>, k: int)
    ensures WithOrdinal(Insert(x, s), k) == (if x.ordinal == k then [x] else []) + WithOrdinal(s, k)
    decreases |s|
  {
    if |s| == 0 || x.ordinal <= s[0].ordinal {
      InsertHere(x, s, k);
    } else {
      InsertWithOrdinal(x, s[1..], k);
      InsertPast(x, s, k);
    }
  }

  /** The base case: `x` goes in front, and the filter sees it first. */
  lemma InsertHere(x: MarkdownHover, s: seq<MarkdownHover>, k: int)
    requires |s| == 0 || x.ordinal <= s[0].ordinal
    ensures WithOrdinal(Insert(x, s), k) == (if x.ordinal == k then [x] else []) + WithOrdinal(s, k)
  {
    assert Insert(x, s) == [x] + s;
    WithOrdinalCons([x] + s, k);
    assert ([x] + s)[1..] == s;
  }

  /** The step case: `x` passes a head of smaller ordinal, which the filter
      cannot keep together with `x`. */
  lemma InsertPast(x: MarkdownHover, s: seq<MarkdownHover>, k: int)
    requires |s| > 0 && x.ordinal > s[0].ordinal
    requires WithOrdinal(Insert(x, s[1..]), k) == (if x.ordinal == k then [x] else []) + WithOrdinal(s[1..], k)
    ensures WithOrdinal(Insert(x, s), k) == (if x.ordinal == k then [x] else []) + WithOrdinal(s, k)
  {
    var t := s[1..];
    var r := Insert(x, s);
    var front: seq<MarkdownHover> := if x.ordinal == k then [x] else [];
    InsertCons(x, s);
    assert r[0] == s[0] && r[1..] == Insert(x, t);
    WithOrdinalCons(r, k);
    WithOrdinalCons(s, k);
    if s[0].ordinal == k {
      assert front == [];
      assert WithOrdinal(r, k) == [s[0]] + WithOrdinal(t, k);
      assert WithOrdinal(s, k) == [s[0]] + WithOrdinal(t, k);
      assert front + WithOrdinal(s, k) == WithOrdinal(s, k);
    } else {
      assert WithOrdinal(r, k) == [] + WithOrdinal(Insert(x, t), k);
      assert WithOrdinal(s, k) == [] + WithOrdinal(t, k);
      assert [] + WithOrdinal(t, k) == WithOrdinal(t, k);
    }
  }

  /** One step of `Insert` past a smaller head. */
  lemma InsertCons(x: MarkdownHover, s: seq<MarkdownHover>)
    requires |s| > 0 && x.ordinal > s[0].ordinal
    ensures Insert(x, s) == [s[0]] + Insert(x, s[1..])
  {
  }

  /** One step of `WithOrdinal`. */
  lemma WithOrdinalCons(s: seq<MarkdownHover>, k: int)
    requires |s| > 0
    ensures WithOrdinal(s, k) == (if s[0].ordinal == k then [s[0]] else []) + WithOrdinal(s[1..], k)
  {
  }

  /** Sorting is stable: the parts sharing an ordinal keep their order. */
  lemma {:induction false} SortIsStable(s: seq<MarkdownHover>, k: int)
    ensures WithOrdinal(SortByOrdinal(s), k) == WithOrdinal(s, k)
    decreases |s|
  {
    if |s| > 0 {
      SortIsStable(s[1..], k);
      InsertWithOrdinal(s[0], SortByOrdinal(s[1..]), k);
    }
  }

  /** Sorting sorted parts changes nothing. */
  lemma {:induction false} SortSortedIsIdentity(s: seq<MarkdownHover>)
    requires SortedByOrdinal(s)
    ensures SortByOrdinal(s) == s
    decreases |s|
  {
    if |s| > 0 {
      var t := s[1..];
      SortedTail(s);
      SortSortedIsIdentity(t);
      SortCons(s);
      InsertFront(s[0], t);
      assert s == [s[0]] + t;
    }
  }

  /** The tail of sorted parts is sorted and starts no lower than the head. */
  lemma SortedTail(s: seq<MarkdownHover>)
    requires |s| > 0 && SortedByOrdinal(s)
    ensures SortedByOrdinal(s[1..])
    ensures |s| > 1 ==> s[0].ordinal <= s[1..][0].ordinal
  {
    var t := s[1..];
    forall i, j | 0 <= i < j < |t| ensures t[i].ordinal <= t[j].ordinal {
      assert t[i] == s[i + 1] && t[j] == s[j + 1];
    }
  }

  /** One step of `SortByOrdinal`. */
  lemma SortCons(s: seq<MarkdownHover>)
    requires |s| > 0
    ensures SortByOrdinal(s) == Insert(s[0], SortByOrdinal(s[1..]))
  {
  }

  /** `Insert` puts a part no larger than the head in front. */
  lemma InsertFront(x: MarkdownHover, s: seq<MarkdownHover>)
    requires |s| == 0 || x.ordinal <= s[0].ordinal
    ensures Insert(x, s) == [x] + s
  {
  }

  /** After sorting, every part with an ordinal below `bound` precedes every
      part at or above it: unicode parts (from 300) come before the
      decoration parts (from 1000), which come before the loading message
      (2000). */
  lemma SortedBands(s: seq<MarkdownHover>, bound: int)
    ensures var r := SortByOrdinal(s);
            forall i, j :: 0 <= i < |r| && 0 <= j < |r| && r[i].ordinal < bound <= r[j].ordinal ==> i < j
  {
  }

  /** The hover rows: the non-empty markdown strings of the parts, in order. */
  function RenderRows(parts: seq<MarkdownHover>): (rows: seq<Markdown>)
    ensures forall i :: 0 <= i < |rows| ==> !IsEmptyMarkdown(rows[i])
    decreases |parts|
  {
    if |parts| == 0 then [] else NonEmpty(parts[0].contents) + RenderRows(parts[1..])
  }

  /** The non-empty strings of one part's contents, in order. */
  function NonEmpty(ms: seq<Markdown>): (r: seq<Markdown>)
    ensures forall i :: 0 <= i < |r| ==> !IsEmptyMarkdown(r[i])
    decreases |ms|
  {
    if |ms| == 0 then []
    else (if IsEmptyMarkdown(ms[0]) then [] else [ms[0]]) + NonEmpty(ms[1..])
  }

  /** The kept strings are exactly the non-empty ones, and none is kept iff
      all are empty. */
  lemma {:induction false} NonEmptyMembers(ms: seq<Markdown>)
    ensures forall m :: m in NonEmpty(ms) <==> m in ms && !IsEmptyMarkdown(m)
    ensures |NonEmpty(ms)| == 0 <==> AllEmpty(ms)
    decreases |ms|
  {
    if |ms| > 0 {
      NonEmptyMembers(ms[1..]);
      assert forall m :: m in ms <==> m == ms[0] || m in ms[1..];
    }
  }

  /** Rendering two batches of parts is rendering each in turn. */
  lemma {:induction false} RenderRowsAppend(a: seq<MarkdownHover>, b: seq<MarkdownHover>)
    ensures RenderRows(a + b) == RenderRows(a) + RenderRows(b)
    decreases |a|
  {
    if |a| == 0 {
      assert a + b == b;
    } else {
      assert (a + b)[0] == a[0];
      assert (a + b)[1..] == a[1..] + b;
      RenderRowsAppend(a[1..], b);
    }
  }

  /** A markdown string is rendered exactly when it is non-empty and some
      part carries it. */
  lemma {:induction false} RenderRowsMembers(parts: seq<MarkdownHover>, m: Markdown)
    ensures m in RenderRows(parts) <==> !IsEmptyMarkdown(m) && exists p :: p in parts && m in p.contents
    decreases |parts|
  {
    if |parts| > 0 {
      RenderRowsMembers(parts[1..], m);
      NonEmptyMembers(parts[0].contents);
      assert forall p :: p in parts <==> p == parts[0] || p in parts[1..];
    }
  }

  /** `renderMarkdownHovers`: the rows of the parts in ordinal order. */
  function RenderMarkdownHovers(parts: seq<MarkdownHover>): (rows: seq<Markdown>)
    ensures forall i :: 0 <= i < |rows| ==> !IsEmptyMarkdown(rows[i])
    ensures forall m :: m in rows <==> !IsEmptyMarkdown(m) && exists p :: p in parts && m in p.contents
  {
    var sorted := SortByOrdinal(parts);
    forall m ensures m in RenderRows(sorted) <==> !IsEmptyMarkdown(m) && exists p :: p in parts && m in p.contents {
      RenderRowsMembers(sorted, m);
      assert forall p :: p in sorted <==> p in parts by {
        forall p ensures p in sorted <==> p in parts {
          assert p in sorted <==> p in multiset(sorted);
        }
      }
    }
    RenderRows(sorted)
  }

  /** Every ordinal of `a` is below every ordinal of `b`. */
  predicate OrdinalsBelow(a: seq<MarkdownHover>, b: seq<MarkdownHover>) {
    forall i, j :: 0 <= i < |a| && 0 <= j < |b| ==> a[i].ordinal < b[j].ordinal
  }

  /** Inserting a part ordered before all of `s2` only touches `s1`. */
  lemma {:induction false} InsertBeforeBand(x: MarkdownHover, s1: seq<MarkdownHover>, s2: seq<MarkdownHover>)
    requires forall p :: p in s2 ==> x.ordinal < p.ordinal
    ensures Insert(x, s1 + s2) == Insert(x, s1) + s2
    decreases |s1|
  {
    if |s1| == 0 {
      assert s1 + s2 == s2;
      if |s2| > 0 {
        assert s2[0] in s2;
      }
    } else if x.ordinal > s1[0].ordinal {
      assert (s1 + s2)[0] == s1[0] && (s1 + s2)[1..] == s1[1..] + s2;
      InsertCons(x, s1 + s2);
      InsertCons(x, s1);
      InsertBeforeBand(x, s1[1..], s2);
    } else {
      assert (s1 + s2)[0] == s1[0];
    }
  }

  /** Sorting a batch whose ordinals all lie below another's sorts each
      batch on its own. */
  lemma {:induction false} SortBands(a: seq<MarkdownHover>, b: seq<MarkdownHover>)
    requires OrdinalsBelow(a, b)
    ensures SortByOrdinal(a + b) == SortByOrdinal(a) + SortByOrdinal(b)
    decreases |a|
  {
    if |a| == 0 {
      assert a + b == b;
    } else {
      var t := a[1..];
      assert (a + b)[0] == a[0] && (a + b)[1..] == t + b;
      assert OrdinalsBelow(t, b) by {
        forall i, j | 0 <= i < |t| && 0 <= j < |b| ensures t[i].ordinal < b[j].ordinal {
          assert t[i] == a[i + 1];
        }
      }
      SortBands(t, b);
      var sb := SortByOrdinal(b);
      forall p | p in sb ensures a[0].ordinal < p.ordinal {
        assert p in multiset(sb);
        assert p in multiset(b);
        var j :| 0 <= j < |b| && b[j] == p;
      }
      InsertBeforeBand(a[0], SortByOrdinal(t), sb);
      SortCons(a + b);
      SortCons(a);
    }
  }

  /** Rendering follows ordinal order: when every ordinal of `a` is below
      every ordinal of `b`, the rows of `a` come first, whatever order the
      parts arrived in within each batch. */
  lemma RenderFollowsOrdinals(a: seq<MarkdownHover>, b: seq<MarkdownHover>)
    requires OrdinalsBelow(a, b)
    ensures RenderMarkdownHovers(a + b) == RenderMarkdownHovers(a) + RenderMarkdownHovers(b)
  {
    SortBands(a, b);
    RenderRowsAppend(SortByOrdinal(a), SortByOrdinal(b));
  }

  /** Dropping empty strings keeps the others in order and with their
      multiplicity: it distributes over concatenation. */
  lemma {:induction false} NonEmptyAppend(a: seq<Markdown>, b: seq<Markdown>)
    ensures NonEmpty(a + b) == NonEmpty(a) + NonEmpty(b)
    decreases |a|
  {
    if |a| == 0 {
      assert a + b == b;
    } else {
      var ab := a + b;
      assert ab[0] == a[0] && ab[1..] == a[1..] + b;
      NonEmptyAppend(a[1..], b);
      NonEmptyStep(ab);
      NonEmptyStep(a);
    }
  }

  /** One step of `NonEmpty`. */
  lemma NonEmptyStep(ms: seq<Markdown>)
    requires |ms| > 0
    ensures NonEmpty(ms) == (if IsEmptyMarkdown(ms[0]) then [] else [ms[0]]) + NonEmpty(ms[1..])
  {
  }

  /** A single string is kept exactly when it is non-empty. */
  lemma NonEmptySingle(m: Markdown)
    ensures NonEmpty([m]) == if IsEmptyMarkdown(m) then [] else [m]
  {
    assert [m][1..] == [];
  }
}

=== FILE: markdown_hover.dfy ===
/** The markdown hover participant: the hover parts built from the line's
    decorations and from hover providers, and the column test deciding
    whether a shown part still fits a new anchor. */
module MarkdownHoverParticipant {
  import opened Wrappers
  import opened EditorTypes

  /** `HoverAnchorType`: a text range, or a foreign element (a widget). */
  datatype AnchorType = RangeAnchor | ForeignElementAnchor

  datatype HoverAnchor = HoverAnchor(kind: AnchorType, range: Range)

  /** The participant that produced a hover part. */
  datatype Owner = MarkdownParticipant | UnicodeParticipant

  /** `MarkdownHover`: a hover part with the range it covers, its markdown
      contents and its ordinal (the position the renderer sorts it to). */
  datatype MarkdownHover = MarkdownHover(owner: Owner, range: Range, contents: seq<Markdown>, ordinal: int)

  /** `isValidForHoverAnchor`, shared by `MarkdownHover` and
      `UnicodeHighlighterHover`: the anchor is a range whose columns lie
      within the part's columns. Line numbers are not compared. */
  predicate IsValidForHoverAnchor(part: Range, anchor: HoverAnchor) {
    && anchor.kind == RangeAnchor
    && part.startColumn <= anchor.range.startColumn
    && part.endColumn >= anchor.range.endColumn
  }

  /** Validity depends on the two ranges' columns only, never on lines. */
  lemma ValidityIgnoresLines(part: Range, anchor: HoverAnchor, partLine: int, anchorLine: int)
    ensures IsValidForHoverAnchor(part, anchor) <==>
            IsValidForHoverAnchor(part.(startLineNumber := partLine, endLineNumber := partLine),
                                  anchor.(range := anchor.range.(startLineNumber := anchorLine, endLineNumber := anchorLine)))
  {
  }

  /** A part covering columns 10..20 stays valid for an anchor at columns
      12..14 even on another line, and is not valid for columns 9..14. */
  lemma ColumnOnlyValidityExample()
    ensures IsValidForHoverAnchor(Range(1, 10, 1, 20), HoverAnchor(RangeAnchor, Range(5, 12, 5, 14)))
    ensures !IsValidForHoverAnchor(Range(1, 10, 1, 20), HoverAnchor(RangeAnchor, Range(1, 9, 1, 14)))
    ensures !IsValidForHoverAnchor(Range(1, 10, 1, 20), HoverAnchor(ForeignElementAnchor, Range(1, 12, 1, 14)))
  {
  }

  /** Narrowing the anchor's columns keeps a part valid. */
  lemma ValidityNarrows(part: Range, wide: HoverAnchor, narrow: HoverAnchor)
    requires IsValidForHoverAnchor(part, wide)
    requires narrow.kind == RangeAnchor
    requires wide.range.startColumn <= narrow.range.startColumn
    requires narrow.range.endColumn <= wide.range.endColumn
    ensures IsValidForHoverAnchor(part, narrow)
  {
  }

  /** The text of the loading message. */
  const LoadingText: string := "Loading..."

  /** The notice shown for lines too long to tokenize. */
  const LongLineText: string :=
    "Tokenization is skipped for long lines for performance reasons. This can be configured via `editor.maxTokenizationLineLength`."

  /** `createLoadingMessage`: a single non-empty message covering the
      anchor's range, sorted after every synchronous part. */
  function CreateLoadingMessage(anchor: HoverAnchor): (r: MarkdownHover)
    ensures r.owner == MarkdownParticipant && r.range == anchor.range
    ensures |r.contents| == 1 && !AllEmpty(r.contents)
    ensures r.ordinal == 2000
  {
    var text := [Markdown(LoadingText)];
    assert !IsEmptyMarkdown(text[0]);
    MarkdownHover(MarkdownParticipant, anchor.range, text, 2000)
  }

  /** The part of a decoration's range that lies on the hovered line: the
      start column when the decoration starts on the line (else 1), the end
      column when it ends on it (else the line's maximum column), through the
      `Range` constructor. */
  function ClipToLine(d: Range, lineNumber: int, maxColumn: int): (r: Range)
    ensures r.startLineNumber == lineNumber && r.endLineNumber == lineNumber
    ensures r.startColumn <= r.endColumn
  {
    var startColumn := if d.startLineNumber == lineNumber then d.startColumn else 1;
    var endColumn := if d.endLineNumber == lineNumber then d.endColumn else maxColumn;
    MakeRange(lineNumber, startColumn, lineNumber, endColumn)
  }

  /** Clipping keeps a decoration that lies on the line as it is, turns one
      spanning the whole line into the full line, runs one that starts on
      the line to its maximum column and one that ends on it from column 1. */
  lemma ClipToLineCases(d: Range, lineNumber: int, maxColumn: int)
    ensures Ordered(d) && d.startLineNumber == lineNumber == d.endLineNumber ==>
              ClipToLine(d, lineNumber, maxColumn) == d
    ensures d.startLineNumber != lineNumber && d.endLineNumber != lineNumber && 1 <= maxColumn ==>
              ClipToLine(d, lineNumber, maxColumn) == Range(lineNumber, 1, lineNumber, maxColumn)
    ensures d.startLineNumber == lineNumber && d.endLineNumber != lineNumber && d.startColumn <= maxColumn ==>
              ClipToLine(d, lineNumber, maxColumn) == Range(lineNumber, d.startColumn, lineNumber, maxColumn)
    ensures d.startLineNumber != lineNumber && d.endLineNumber == lineNumber && 1 <= d.endColumn ==>
              ClipToLine(d, lineNumber, maxColumn) == Range(lineNumber, 1, lineNumber, d.endColumn)
  {
  }

  /** The decorations whose hover message is not empty, in order. */
  function WithMessages(ds: seq<ModelDecoration>): (r: seq<ModelDecoration>)
    ensures |r| <= |ds|
    decreases |ds|
  {
    if |ds| == 0 then []
    else
      var rest := WithMessages(ds[..|ds| - 1]);
      var last := ds[|ds| - 1];
      if IsEmptyMessage(last.hoverMessage) then rest else rest + [last]
  }

  /** The kept decorations are exactly those whose hover message is not
      empty. */
  lemma {:induction false} WithMessagesMembers(ds: seq<ModelDecoration>)
    ensures forall d :: d in WithMessages(ds) <==> d in ds && !IsEmptyMessage(d.hoverMessage)
    decreases |ds|
  {
    if |ds| > 0 {
      WithMessagesMembers(ds[..|ds| - 1]);
      assert forall d :: d in ds <==> d in ds[..|ds| - 1] || d == ds[|ds| - 1];
    }
  }

  /** One more decoration extends the kept ones by it exactly when its
      message is not empty. */
  lemma WithMessagesSnoc(ds: seq<ModelDecoration>, i: nat)
    requires i < |ds|
    ensures WithMessages(ds[..i + 1]) == WithMessages(ds[..i]) + (if IsEmptyMessage(ds[i].hoverMessage) then [] else [ds[i]])
  {
    assert ds[..i + 1][..i] == ds[..i];
    assert ds[..i + 1][i] == ds[i];
  }

  /** Whether the long-line notice is shown: the configured limit is a
      number and the line is at least that long. */
  predicate LongLine(lineLength: nat, maxTokenizationLineLength: Option<int>) {
    maxTokenizationLineLength.Some? && lineLength >= maxTokenizationLineLength.value
  }

  /** Parts numbered `first`, `first + 1`, ..., each the markdown
      participant's and with some non-empty string. */
  predicate Numbered(ps: seq<MarkdownHover>, first: int) {
    forall j :: 0 <= j < |ps| ==>
      ps[j].ordinal == first + j && ps[j].owner == MarkdownParticipant && !AllEmpty(ps[j].contents)
  }

  /** One part per kept decoration, in order: its range clipped to the line
      and its contents the decoration's hover message. */
  predicate ClippedMessages(ps: seq<MarkdownHover>, kept: seq<ModelDecoration>, line: int, maxColumn: int) {
    && |ps| == |kept|
    && forall j :: 0 <= j < |ps| ==>
         ps[j].range == ClipToLine(kept[j].range, line, maxColumn) && ps[j].contents == AsArray(kept[j].hoverMessage)
  }

  /** Numbered batches joined end to end stay numbered. */
  lemma NumberedAppend(a: seq<MarkdownHover>, b: seq<MarkdownHover>, first: int)
    requires Numbered(a, first) && Numbered(b, first + |a|)
    ensures Numbered(a + b, first)
  {
    forall j | 0 <= j < |a + b|
      ensures (a + b)[j].ordinal == first + j && (a + b)[j].owner == MarkdownParticipant && !AllEmpty((a + b)[j].contents)
    {
      if j >= |a| {
        assert (a + b)[j] == b[j - |a|];
      }
    }
  }

  /** `computeSync`: nothing without a model or for a non-range anchor;
      otherwise the long-line notice first (when the line is too long), then
      one part per decoration with a non-empty message, its range clipped to
      the anchor's line, numbered from 1000 upwards. */
  method ComputeSync(hasModel: bool, anchor: HoverAnchor, lineDecorations: seq<ModelDecoration>,
                     maxColumn: int, lineLength: nat, maxTokenizationLineLength: Option<int>)
    returns (result: seq<MarkdownHover>)
    ensures !hasModel || anchor.kind != RangeAnchor ==> result == []
    ensures hasModel && anchor.kind == RangeAnchor ==>
              var notice := if LongLine(lineLength, maxTokenizationLineLength) then 1 else 0;
              var kept := WithMessages(lineDecorations);
              && |result| == notice + |kept|
              && Numbered(result, 1000)
              && (notice == 1 ==> result[0].range == anchor.range && result[0].contents == [Markdown(LongLineText)])
              && ClippedMessages(result[notice..], kept, anchor.range.startLineNumber, maxColumn)
  {
    if !hasModel || anchor.kind != RangeAnchor {
      return [];
    }
    var line := anchor.range.startLineNumber;
    var notice: seq<MarkdownHover> := [];
    if LongLine(lineLength, maxTokenizationLineLength) {
      var text := [Markdown(LongLineText)];
      assert !IsEmptyMarkdown(text[0]);
      notice := [MarkdownHover(MarkdownParticipant, anchor.range, text, 1000)];
    }
    assert Numbered(notice, 1000);
    var parts := MessageParts(lineDecorations, line, maxColumn, 1000 + |notice|);
    result := notice + parts;
    NumberedAppend(notice, parts, 1000);
    assert result[|notice|..] == parts;
  }

  /** The decoration loop of `computeSync`: one part per decoration with a
      non-empty message, in order, clipped to the line, numbered on from
      `first`. */
  method MessageParts(ds: seq<ModelDecoration>, line: int, maxColumn: int, first: int)
    returns (parts: seq<MarkdownHover>)
    ensures Numbered(parts, first)
    ensures ClippedMessages(parts, WithMessages(ds), line, maxColumn)
  {
    parts := [];
    var i := 0;
    while i < |ds|
      invariant 0 <= i <= |ds|
      invariant Numbered(parts, first)
      invariant ClippedMessages(parts, WithMessages(ds[..i]), line, maxColumn)
    {
      var d := ds[i];
      WithMessagesSnoc(ds, i);
      if !IsEmptyMessage(d.hoverMessage) {
        parts := parts + [MarkdownHover(MarkdownParticipant, ClipToLine(d.range, line, maxColumn), AsArray(d.hoverMessage),
                                        first + |parts|)];
      }
      i := i + 1;
    }
    assert ds[..i] == ds;
  }

  /** `IHoverResult` of a hover provider: markdown contents and an optional
      range, with the ordinal `getHover` assigned to the provider. */
  datatype ProviderHover = ProviderHover(contents: seq<Markdown>, range: Option<Range>, ordinal: int)

  /** The part built from one provider hover: its own range when it has one
      (through `Range.lift`), else the anchor's. */
  function FromProvider(item: ProviderHover, anchor: HoverAnchor): MarkdownHover {
    var r := if item.range.Some? then
               var x := item.range.value;
               MakeRange(x.startLineNumber, x.startColumn, x.endLineNumber, x.endColumn)
             else anchor.range;
    MarkdownHover(MarkdownParticipant, r, item.contents, item.ordinal)
  }

  /** The provider hovers with non-empty contents, each made a part. */
  function ProviderParts(items: seq<ProviderHover>, anchor: HoverAnchor): (r: seq<MarkdownHover>)
    ensures |r| <= |items|
    ensures forall i :: 0 <= i < |r| ==> !AllEmpty(r[i].contents) && r[i].owner == MarkdownParticipant
    ensures forall item :: item in items && !AllEmpty(item.contents) ==> FromProvider(item, anchor) in r
    ensures forall p :: p in r ==> exists item :: item in items && !AllEmpty(item.contents) && p == FromProvider(item, anchor)
    decreases |items|
  {
    if |items| == 0 then []
    else
      var rest := ProviderParts(items[1..], anchor);
      assert forall item :: item in items <==> item == items[0] || item in items[1..];
      if AllEmpty(items[0].contents) then rest else [FromProvider(items[0], anchor)] + rest
  }

  /** Filtering and mapping the provider hovers keeps arrival order and
      duplicates: it distributes over concatenation. */
  lemma {:induction false} ProviderPartsAppend(a: seq<ProviderHover>, b: seq<ProviderHover>, anchor: HoverAnchor)
    ensures ProviderParts(a + b, anchor) == ProviderParts(a, anchor) + ProviderParts(b, anchor)
    decreases |a|
  {
    if |a| == 0 {
      assert a + b == b;
    } else {
      assert (a + b)[0] == a[0] && (a + b)[1..] == a[1..] + b;
      ProviderPartsAppend(a[1..], b, anchor);
    }
  }

  /** A single provider hover gives its part, or nothing when its contents
      are all empty. */
  lemma ProviderPartsSingle(x: ProviderHover, anchor: HoverAnchor)
    ensures ProviderParts([x], anchor) == if AllEmpty(x.contents) then [] else [FromProvider(x, anchor)]
  {
    assert [x][1..] == [];
  }

  /** `computeAsync`: nothing without a model, for a non-range anchor or
      when no hover provider is registered for the model; otherwise one
      part per provider hover with non-empty contents, in arrival order,
      keeping the provider's ordinal. */
  function ComputeAsync(hasModel: bool, anchor: HoverAnchor, hasProvider: bool, items: seq<ProviderHover>): (r: seq<MarkdownHover>)
    ensures !hasModel || anchor.kind != RangeAnchor || !hasProvider ==> r == []
    ensures hasModel && anchor.kind == RangeAnchor && hasProvider ==> r == ProviderParts(items, anchor)
  {
    if !hasModel || anchor.kind != RangeAnchor || !hasProvider then [] else ProviderParts(items, anchor)
  }

  /** A provider part keeps the provider's ordinal and contents; its range
      is the anchor's when the provider gives none, else the provider's,
      put in order as `Range.lift` does. */
  lemma ProviderPartShape(item: ProviderHover, anchor: HoverAnchor)
    requires Ordered(anchor.range)
    ensures FromProvider(item, anchor).ordinal == item.ordinal
    ensures FromProvider(item, anchor).contents == item.contents
    ensures Ordered(FromProvider(item, anchor).range)
    ensures item.range.None? ==> FromProvider(item, anchor).range == anchor.range
    ensures item.range.Some? && Ordered(item.range.value) ==> FromProvider(item, anchor).range == item.range.value
    ensures item.range.Some? && !Ordered(item.range.value) ==>
              var x := item.range.value;
              FromProvider(item, anchor).range == Range(x.endLineNumber, x.endColumn, x.startLineNumber, x.startColumn)
  {
  }
}

=== FILE: unicode_hover.dfy ===
/** `UnicodeHighlighterHoverParticipant`: one hover part per highlighted
    decoration on the hovered line, explaining why the character is
    highlighted and linking to the exclude menu. */
module UnicodeHover {
  import opened Wrappers
  import opened EditorTypes
  import opened Controller
  import opened CodePointFormat
  import opened ExcludeOptions
  import opened MarkdownHoverParticipant

  /** The command the "Adjust settings" link runs. */
  const ShowExcludeOptionsId: string := "editor.action.unicodeHighlight.showExcludeOptions"

  /** `codePointAt(0)` of the text under a decoration; None on empty text. */
  function FirstCodePoint(s: string): (r: Option<CodePoint>)
    ensures r.Some? <==> |s| > 0
    ensures r.Some? ==> r.value == s[0] as int
  {
    if |s| == 0 then None else Some(s[0] as int)
  }

  /** The explanation for one reason, in the default (English) wording:
      each message opens with "The character " and the formatted code point,
      followed by a tail that depends on the reason. */
  function ReasonText(reason: Reason, cp: CodePoint, isInvisible: CodePoint -> bool): string {
    "The character " + FormatCodePoint(cp, isInvisible(cp)) + ReasonTail(reason, isInvisible)
  }

  /** The part of an explanation after the hovered code point; the ambiguous
      one names the confusable character, formatted the same way. */
  function ReasonTail(reason: Reason, isInvisible: CodePoint -> bool): string {
    match reason
    case Ambiguous(confusableWith, _) =>
      " could be confused with the character " + FormatCodePoint(confusableWith, isInvisible(confusableWith))
        + ", which is more common in source code."
    case Invisible => " is invisible."
    case NonBasicAscii => " is not a basic ASCII character."
  }

  /** The arguments the hover hands to the exclude menu. */
  function ArgsFor(cp: CodePoint, info: DecorationInfo): ShowExcludeOptionsArgs {
    ShowExcludeOptionsArgs(cp, info.reason, info.inComment, info.inString)
  }

  /** The "Adjust settings" link: a command link running the exclude-options
      command with the encoded arguments as its query. */
  function SettingsLink(encoded: string): string {
    " [Adjust settings](command:" + ShowExcludeOptionsId + "?" + encoded + ")"
  }

  /** The markdown of one hover part: the explanation followed by an
      "Adjust settings" command link carrying the encoded arguments.
      `encodeArgs` stands for `encodeURIComponent(JSON.stringify(...))`. */
  function HoverText(cp: CodePoint, info: DecorationInfo, isInvisible: CodePoint -> bool,
                     encodeArgs: ShowExcludeOptionsArgs -> string): string {
    ReasonText(info.reason, cp, isInvisible) + SettingsLink(encodeArgs(ArgsFor(cp, info)))
  }

  /** The decorations `getDecorationInfo` answers for, in order. */
  function WithInfo(info: DecorationId -> Option<DecorationInfo>, ds: seq<ModelDecoration>): (r: seq<ModelDecoration>)
    ensures |r| <= |ds|
    decreases |ds|
  {
    if |ds| == 0 then []
    else
      var rest := WithInfo(info, ds[..|ds| - 1]);
      var last := ds[|ds| - 1];
      if info(last.id).Some? then rest + [last] else rest
  }

  /** The kept decorations are exactly those of the line with info. */
  lemma {:induction false} WithInfoMembers(info: DecorationId -> Option<DecorationInfo>, ds: seq<ModelDecoration>)
    ensures forall d :: d in WithInfo(info, ds) <==> d in ds && info(d.id).Some?
    decreases |ds|
  {
    if |ds| > 0 {
      WithInfoMembers(info, ds[..|ds| - 1]);
      assert forall d :: d in ds <==> d in ds[..|ds| - 1] || d == ds[|ds| - 1];
    }
  }

  /** The hover's markdown for a code point and its highlight info. */
  function HoverRenderer(isInvisible: CodePoint -> bool, encodeArgs: ShowExcludeOptionsArgs -> string)
    : (CodePoint, DecorationInfo) -> string
  {
    (cp: CodePoint, info: DecorationInfo) => HoverText(cp, info, isInvisible, encodeArgs)
  }

  /** The explanation is never empty, so neither is a rendered hover. */
  lemma RenderedNonEmpty(isInvisible: CodePoint -> bool, encodeArgs: ShowExcludeOptionsArgs -> string,
                         cp: CodePoint, info: DecorationInfo)
    ensures |HoverRenderer(isInvisible, encodeArgs)(cp, info)| > 0
  {
    assert HoverRenderer(isInvisible, encodeArgs)(cp, info) == HoverText(cp, info, isInvisible, encodeArgs);
  }

  /** The part for a decoration with highlight info and readable text: one
      markdown string rendered from the first code point of the text. */
  function PartFor(info: DecorationInfo, text: string, d: ModelDecoration, ordinal: int,
                   render: (CodePoint, DecorationInfo) -> string): (p: MarkdownHover)
    requires |text| > 0
    ensures p.owner == UnicodeParticipant && p.range == d.range && p.ordinal == ordinal
    ensures p.contents == [Markdown(render(text[0] as int, info))]
  {
    MarkdownHover(UnicodeParticipant, d.range, [Markdown(render(text[0] as int, info))], ordinal)
  }

  /** Some highlighted decoration covers no text: `codePointAt(0)` gives
      `undefined` and formatting it throws. */
  predicate SomeTextMissing(valueInRange: Range -> string, kept: seq<ModelDecoration>) {
    exists j :: 0 <= j < |kept| && |valueInRange(kept[j].range)| == 0
  }

  /** `parts` are the hover parts of the decorations `kept`, one each, in
      order and numbered from 300, every decoration covering some text. */
  predicate PartsFor(info: DecorationId -> Option<DecorationInfo>, valueInRange: Range -> string,
                     kept: seq<ModelDecoration>, parts: seq<MarkdownHover>,
                     render: (CodePoint, DecorationInfo) -> string)
  {
    && |parts| == |kept|
    && forall j :: 0 <= j < |kept| ==>
         && |valueInRange(kept[j].range)| > 0
         && info(kept[j].id).Some?
         && parts[j] == PartFor(info(kept[j].id).value, valueInRange(kept[j].range), kept[j],
                                300 + j, render)
  }

  /** The parts grow with the kept decorations, one decoration at a time. */
  lemma PartsForSnoc(info: DecorationId -> Option<DecorationInfo>, valueInRange: Range -> string,
                     kept: seq<ModelDecoration>, parts: seq<MarkdownHover>, d: ModelDecoration, render: (CodePoint, DecorationInfo) -> string)
    requires PartsFor(info, valueInRange, kept, parts, render)
    requires info(d.id).Some? && |valueInRange(d.range)| > 0
    ensures PartsFor(info, valueInRange, kept + [d],
                     parts + [PartFor(info(d.id).value, valueInRange(d.range), d, 300 + |kept|, render)], render)
  {
    var kept' := kept + [d];
    var parts' := parts + [PartFor(info(d.id).value, valueInRange(d.range), d, 300 + |kept|, render)];
    forall j | 0 <= j < |kept'|
      ensures && |valueInRange(kept'[j].range)| > 0
              && info(kept'[j].id).Some?
              && parts'[j] == PartFor(info(kept'[j].id).value, valueInRange(kept'[j].range), kept'[j], 300 + j, render)
    {
      if j < |kept| {
        assert kept'[j] == kept[j] && parts'[j] == parts[j];
      } else {
        assert kept'[j] == d;
      }
    }
  }

  /** `computeSync`. `contribution` is the highlighter's `getDecorationInfo`
      (`Controller.GetDecorationInfo` of the editor's controller), absent when
      the editor has no such contribution; `valueInRange` reads the model.
      Nothing without a model, for a non-range anchor or without the
      contribution; otherwise one part per line decoration that has info, in
      order, covering the decoration's range, numbered from 300 and holding
      the explanation and settings link for the first code point of the
      decoration's text. None stands for the call throwing, which happens
      exactly when such a decoration covers no text. */
  method ComputeSync(hasModel: bool, anchor: HoverAnchor, contribution: Option<DecorationId -> Option<DecorationInfo>>,
                     valueInRange: Range -> string, lineDecorations: seq<ModelDecoration>,
                     isInvisible: CodePoint -> bool, encodeArgs: ShowExcludeOptionsArgs -> string)
    returns (result: Option<seq<MarkdownHover>>)
    ensures !hasModel || anchor.kind != RangeAnchor || contribution.None? ==> result == Some([])
    ensures hasModel && anchor.kind == RangeAnchor && contribution.Some? ==>
              var kept := WithInfo(contribution.value, lineDecorations);
              && (result.None? <==> SomeTextMissing(valueInRange, kept))
              && (result.Some? ==> PartsFor(contribution.value, valueInRange, kept, result.value,
                                            HoverRenderer(isInvisible, encodeArgs)))
  {
    if !hasModel || anchor.kind != RangeAnchor || contribution.None? {
      return Some([]);
    }
    result := CollectParts(contribution.value, valueInRange, lineDecorations, HoverRenderer(isInvisible, encodeArgs));
  }

  /** The loop of `computeSync` over the line's decorations. */
  method CollectParts(info: DecorationId -> Option<DecorationInfo>, valueInRange: Range -> string,
                      ds: seq<ModelDecoration>, render: (CodePoint, DecorationInfo) -> string)
    returns (result: Option<seq<MarkdownHover>>)
    ensures result.None? <==> SomeTextMissing(valueInRange, WithInfo(info, ds))
    ensures result.Some? ==> PartsFor(info, valueInRange, WithInfo(info, ds), result.value, render)
  {
    var parts: seq<MarkdownHover> := [];
    var i := 0;
    while i < |ds|
      invariant 0 <= i <= |ds|
      invariant !SomeTextMissing(valueInRange, WithInfo(info, ds[..i]))
      invariant PartsFor(info, valueInRange, WithInfo(info, ds[..i]), parts, render)
    {
      var d := ds[i];
      var highlightInfo := info(d.id);
      ghost var before := parts;
      if highlightInfo.Some? {
        var text := valueInRange(d.range);
        var cp := FirstCodePoint(text);
        if cp.None? {
          NoTextStops(info, valueInRange, ds, i);
          return None;
        }
        parts := parts + [PartFor(highlightInfo.value, text, d, 300 + |parts|, render)];
      }
      NextDecoration(info, valueInRange, ds, i, before, render);
      i := i + 1;
    }
    assert ds[..i] == ds;
    return Some(parts);
  }

  /** The loop step of `ComputeSync`: the next decoration adds its part
      exactly when it has info, and keeps every kept decoration covering
      text. */
  lemma NextDecoration(info: DecorationId -> Option<DecorationInfo>, valueInRange: Range -> string,
                       ds: seq<ModelDecoration>, i: nat, parts: seq<MarkdownHover>, render: (CodePoint, DecorationInfo) -> string)
    requires i < |ds|
    requires !SomeTextMissing(valueInRange, WithInfo(info, ds[..i]))
    requires PartsFor(info, valueInRange, WithInfo(info, ds[..i]), parts, render)
    requires info(ds[i].id).Some? ==> |valueInRange(ds[i].range)| > 0
    ensures !SomeTextMissing(valueInRange, WithInfo(info, ds[..i + 1]))
    ensures PartsFor(info, valueInRange, WithInfo(info, ds[..i + 1]),
                     if info(ds[i].id).Some?
                     then parts + [PartFor(info(ds[i].id).value, valueInRange(ds[i].range), ds[i], 300 + |parts|, render)]
                     else parts,
                     render)
  {
    WithInfoSnoc(info, ds, i);
    var kept := WithInfo(info, ds[..i]);
    if info(ds[i].id).Some? {
      MissingSnoc(valueInRange, kept, ds[i]);
      PartsForSnoc(info, valueInRange, kept, parts, ds[i], render);
    }
  }

  /** A decoration with info but no text makes some kept decoration miss
      its text. */
  lemma NoTextStops(info: DecorationId -> Option<DecorationInfo>, valueInRange: Range -> string,
                    ds: seq<ModelDecoration>, i: nat)
    requires i < |ds|
    requires info(ds[i].id).Some? && |valueInRange(ds[i].range)| == 0
    ensures SomeTextMissing(valueInRange, WithInfo(info, ds))
  {
    WithInfoSnoc(info, ds, i);
    MissingSnoc(valueInRange, WithInfo(info, ds[..i]), ds[i]);
    WithInfoExtends(info, valueInRange, ds, i + 1);
  }

  /** With the controller's `getDecorationInfo` as the contribution, the
      hover keeps exactly the line decorations that the highlighter tracks
      and the model shows. */
  lemma HoverKeepsTrackedVisible(c: Controller, q: ModelQueries, ds: seq<ModelDecoration>)
    requires Valid(c)
    ensures var info := (id: DecorationId) => GetDecorationInfo(c, id, q);
            forall d :: d in WithInfo(info, ds) <==>
              && d in ds && c.highlighter.Some? && d.id in LiveIds(c)
              && q.isVisible(CurrentDecoration(c.highlighter.value, d.id, q))
  {
    var info := (id: DecorationId) => GetDecorationInfo(c, id, q);
    WithInfoMembers(info, ds);
  }

  /** One more decoration extends the kept ones by it exactly when it has
      info. */
  lemma WithInfoSnoc(info: DecorationId -> Option<DecorationInfo>, ds: seq<ModelDecoration>, i: nat)
    requires i < |ds|
    ensures WithInfo(info, ds[..i + 1]) == WithInfo(info, ds[..i]) + (if info(ds[i].id).Some? then [ds[i]] else [])
  {
    assert ds[..i + 1][..i] == ds[..i];
    assert ds[..i + 1][i] == ds[i];
  }

  /** Text is missing after appending `d` exactly when it was missing
      before or `d` covers no text. */
  lemma MissingSnoc(valueInRange: Range -> string, before: seq<ModelDecoration>, d: ModelDecoration)
    ensures SomeTextMissing(valueInRange, before + [d]) <==>
              SomeTextMissing(valueInRange, before) || |valueInRange(d.range)| == 0
  {
    var after := before + [d];
    assert after[|before|] == d;
    assert forall j :: 0 <= j < |before| ==> after[j] == before[j];
  }

  /** The decorations kept from a prefix are a prefix of those kept overall,
      so missing text in the prefix is missing text overall. */
  lemma {:induction false} WithInfoExtends(info: DecorationId -> Option<DecorationInfo>, valueInRange: Range -> string,
                                           ds: seq<ModelDecoration>, n: nat)
    requires n <= |ds|
    requires SomeTextMissing(valueInRange, WithInfo(info, ds[..n]))
    ensures SomeTextMissing(valueInRange, WithInfo(info, ds))
    decreases |ds| - n
  {
    if n < |ds| {
      WithInfoSnoc(info, ds, n);
      var pre := WithInfo(info, ds[..n]);
      var j :| 0 <= j < |pre| && |valueInRange(pre[j].range)| == 0;
      var next := WithInfo(info, ds[..n + 1]);
      assert next[j] == pre[j];
      WithInfoExtends(info, valueInRange, ds, n + 1);
    } else {
      assert ds[..n] == ds;
    }
  }

  /** Every explanation starts by naming the hovered code point. */
  lemma ReasonNamesCodePoint(reason: Reason, cp: CodePoint, isInvisible: CodePoint -> bool)
    ensures var prefix := "The character " + FormatCodePoint(cp, isInvisible(cp));
            var t := ReasonText(reason, cp, isInvisible);
            |prefix| <= |t| && t[..|prefix|] == prefix
  {
    PrefixOfConcat("The character " + FormatCodePoint(cp, isInvisible(cp)), ReasonTail(reason, isInvisible));
  }

  lemma PrefixOfConcat(a: string, b: string)
    ensures |a| <= |a + b| && (a + b)[..|a|] == a
  {
  }

  /** The three explanations end differently ("...code.", "...invisible.",
      "...character."), so the text tells the reason kind apart. */
  lemma ReasonTextTellsKind(r1: Reason, r2: Reason, cp: CodePoint, isInvisible: CodePoint -> bool)
    requires ReasonText(r1, cp, isInvisible) == ReasonText(r2, cp, isInvisible)
    ensures r1.Ambiguous? == r2.Ambiguous? && r1.Invisible? == r2.Invisible? && r1.NonBasicAscii? == r2.NonBasicAscii?
  {
    var prefix := "The character " + FormatCodePoint(cp, isInvisible(cp));
    var m1 := KindMark(r1, isInvisible);
    var m2 := KindMark(r2, isInvisible);
    ThirdLast(prefix, ReasonTail(r1, isInvisible));
    ThirdLast(prefix, ReasonTail(r2, isInvisible));
  }

  lemma ThirdLast(a: string, b: string)
    requires |b| >= 3
    ensures (a + b)[|a + b| - 3] == b[|b| - 3]
  {
  }

  /** The third-to-last character of a tail: 'd' (code), 'l' (invisible) or
      'e' (character). */
  function KindMark(reason: Reason, isInvisible: CodePoint -> bool): (m: char)
    ensures |ReasonTail(reason, isInvisible)| >= 3
    ensures m == ReasonTail(reason, isInvisible)[|ReasonTail(reason, isInvisible)| - 3]
    ensures reason.Ambiguous? ==> m == 'd'
    ensures reason.Invisible? ==> m == 'l'
    ensures reason.NonBasicAscii? ==> m == 'e'
  {
    match reason
    case Ambiguous(w, _) =>
      var ending := ", which is more common in source code.";
      assert ending[|ending| - 3] == 'd';
      ThirdLast(" could be confused with the character " + FormatCodePoint(w, isInvisible(w)), ending);
      'd'
    case Invisible =>
      var tail := " is invisible.";
      assert tail[|tail| - 3] == 'l';
      'l'
    case NonBasicAscii =>
      var tail := " is not a basic ASCII character.";
      assert tail[|tail| - 3] == 'e';
      'e'
  }

  /** The exclude menu that the part's link opens (its arguments decoded as
      they were encoded) offers to exclude exactly the hovered character,
      and offers locale entries only for ambiguous characters. */
  lemma HoverLinkOpensMenuForItsCharacter(info: DecorationInfo, text: string, isInvisible: CodePoint -> bool)
    requires |text| > 0
    ensures var cp := text[0] as int;
            var menu := ExcludeMenu(ArgsFor(cp, info), isInvisible);
            && ExcludeCharacter(cp, ExcludeCharLabel(cp, isInvisible(cp))) in menu
            && CountKind(menu, CharacterKind) == 1
            && (CountKind(menu, LocaleKind) > 0 ==> info.reason.Ambiguous?)
            && menu[|menu| - 1] == DisableItemFor(info.reason)
  {
    ExcludeMenuShape(ArgsFor(text[0] as int, info), isInvisible);
  }
}

=== FILE: viewport_aggregation.dfy ===
/** `ViewportUnicodeHighlighter._update`: folding the classifier results of
    the visible ranges into one total. The fold is modelled as the source
    writes it, where every count is added to itself; a summing fold is given
    beside it as the evidently intended behaviour. */
module ViewportAggregation {
  import opened Wrappers
  import opened EditorTypes
  import opened Banner

  /** The `totalResult` the loop starts from. */
  function EmptyTotal(): HighlightResult {
    HighlightResult([], 0, 0, 0, false)
  }

  /** One loop iteration as written: the ranges are appended and `hasMore` is
      OR-ed, but each count is increased by the TOTAL's own count. */
  function AccumulateAsWritten(total: HighlightResult, result: HighlightResult): HighlightResult {
    HighlightResult(
      total.ranges + result.ranges,
      total.ambiguousCharacterCount + total.ambiguousCharacterCount,
      total.invisibleCharacterCount + total.invisibleCharacterCount,
      total.nonBasicAsciiCharacterCount + total.nonBasicAsciiCharacterCount,
      total.hasMore || result.hasMore)
  }

  /** The loop over the visible ranges' results, in visible-range order. */
  function Aggregate(results: seq<HighlightResult>): HighlightResult
    decreases |results|
  {
    if |results| == 0 then EmptyTotal()
    else AccumulateAsWritten(Aggregate(results[..|results| - 1]), results[|results| - 1])
  }

  /** Reference definition: the ranges of all results, one after another. */
  function ConcatRanges(results: seq<HighlightResult>): seq<Range>
    decreases |results|
  {
    if |results| == 0 then [] else results[0].ranges + ConcatRanges(results[1..])
  }

  predicate AnyHasMore(results: seq<HighlightResult>) {
    exists i :: 0 <= i < |results| && results[i].hasMore
  }

  lemma {:induction false} ConcatRangesSnoc(results: seq<HighlightResult>, last: HighlightResult)
    ensures ConcatRanges(results + [last]) == ConcatRanges(results) + last.ranges
    decreases |results|
  {
    if |results| == 0 {
      assert results + [last] == [last];
      assert [last][1..] == [];
    } else {
      assert (results + [last])[1..] == results[1..] + [last];
      ConcatRangesSnoc(results[1..], last);
    }
  }

  /** The fold as written: the total's ranges are every visible range's
      results in order, `hasMore` is set when any range's is, and the three
      counts stay 0 whatever the classifier reported. */
  lemma {:induction false} AggregateAsWritten(results: seq<HighlightResult>)
    ensures Aggregate(results).ranges == ConcatRanges(results)
    ensures Aggregate(results).hasMore <==> AnyHasMore(results)
    ensures Aggregate(results).ambiguousCharacterCount == 0
    ensures Aggregate(results).invisibleCharacterCount == 0
    ensures Aggregate(results).nonBasicAsciiCharacterCount == 0
    decreases |results|
  {
    if |results| > 0 {
      var init := results[..|results| - 1];
      var last := results[|results| - 1];
      AggregateAsWritten(init);
      assert results == init + [last];
      ConcatRangesSnoc(init, last);
      AnyHasMoreSnoc(init, last);
    }
  }

  /** Some result of `init + [last]` has more iff one of `init` or `last` does. */
  lemma AnyHasMoreSnoc(init: seq<HighlightResult>, last: HighlightResult)
    ensures AnyHasMore(init + [last]) <==> AnyHasMore(init) || last.hasMore
  {
    var results := init + [last];
    assert results[|init|] == last;
    if AnyHasMore(init) {
      var i :| 0 <= i < |init| && init[i].hasMore;
      assert results[i] == init[i];
    }
    if AnyHasMore(results) {
      var i :| 0 <= i < |results| && results[i].hasMore;
      if i < |init| {
        assert init[i] == results[i];
      }
    }
  }

  /** Consequence of the zero counts: whenever the visible ranges overflow and
      the banner is not dismissed, the viewport banner names non-basic ASCII,
      whichever category actually dominated. */
  lemma ViewportBannerNamesNonBasicAscii(results: seq<HighlightResult>, banner: BannerView)
    requires AnyHasMore(results)
    ensures UpdateState(banner, false, Some(Aggregate(results))) == Shown(NonBasicAsciiCategory)
  {
    AggregateAsWritten(results);
  }

  /** Sum of one category's counts over all results. */
  function SumOf(results: seq<HighlightResult>, c: Category): nat
    decreases |results|
  {
    if |results| == 0 then 0
    else SumOf(results[..|results| - 1], c) + CountOf(results[|results| - 1], c)
  }

  /** The intended iteration: each count grows by the RESULT's count. */
  function AccumulateSummed(total: HighlightResult, result: HighlightResult): HighlightResult {
    HighlightResult(
      total.ranges + result.ranges,
      total.ambiguousCharacterCount + result.ambiguousCharacterCount,
      total.invisibleCharacterCount + result.invisibleCharacterCount,
      total.nonBasicAsciiCharacterCount + result.nonBasicAsciiCharacterCount,
      total.hasMore || result.hasMore)
  }

  /** The intended fold. */
  function AggregateSummed(results: seq<HighlightResult>): HighlightResult
    decreases |results|
  {
    if |results| == 0 then EmptyTotal()
    else AccumulateSummed(AggregateSummed(results[..|results| - 1]), results[|results| - 1])
  }

  /** The intended fold keeps the ranges and `hasMore` of the written one and
      carries each category's count summed over the visible ranges. */
  lemma {:induction false} AggregateSummedCounts(results: seq<HighlightResult>)
    ensures AggregateSummed(results).ranges == Aggregate(results).ranges
    ensures AggregateSummed(results).hasMore == Aggregate(results).hasMore
    ensures forall c: Category :: CountOf(AggregateSummed(results), c) == SumOf(results, c)
    decreases |results|
  {
    if |results| > 0 {
      AggregateSummedCounts(results[..|results| - 1]);
    }
  }

  /** With the intended fold, an overflowing viewport's banner names a
      category whose total count over the visible ranges is the largest. */
  lemma SummedBannerPicksDominant(results: seq<HighlightResult>, banner: BannerView)
    requires AnyHasMore(results)
    ensures var b := UpdateState(banner, false, Some(AggregateSummed(results)));
            b.Shown? && forall other: Category :: SumOf(results, other) <= SumOf(results, b.category)
  {
    AggregateAsWritten(results);
    AggregateSummedCounts(results);
  }

  /** The input that shows the self-addition: one visible range with five
      invisible characters and an overflow. The written fold names non-basic
      ASCII; the intended one names invisible characters. */
  lemma SelfAdditionMisnamesCategory()
    ensures var results := [HighlightResult([], 0, 5, 0, true)];
            && UpdateState(Hidden, false, Some(Aggregate(results))) == Shown(NonBasicAsciiCategory)
            && UpdateState(Hidden, false, Some(AggregateSummed(results))) == Shown(InvisibleCategory)
  {
    var r := HighlightResult([], 0, 5, 0, true);
    WrittenFoldOnFive(r);
    SummedFoldOnFive(r);
  }

  lemma WrittenFoldOnFive(r: HighlightResult)
    requires r == HighlightResult([], 0, 5, 0, true)
    ensures UpdateState(Hidden, false, Some(Aggregate([r]))) == Shown(NonBasicAsciiCategory)
  {
    SingleResult(r);
    ZeroCountsNameNonBasicAscii();
  }

  lemma ZeroCountsNameNonBasicAscii()
    ensures PickCategory(HighlightResult([], 0, 0, 0, true)) == NonBasicAsciiCategory
  {
  }

  lemma SummedFoldOnFive(r: HighlightResult)
    requires r == HighlightResult([], 0, 5, 0, true)
    ensures UpdateState(Hidden, false, Some(AggregateSummed([r]))) == Shown(InvisibleCategory)
  {
    SingleResult(r);
    FiveInvisibleNamesInvisible(r);
  }

  lemma FiveInvisibleNamesInvisible(r: HighlightResult)
    requires r == HighlightResult([], 0, 5, 0, true)
    ensures PickCategory(r) == InvisibleCategory
  {
  }

  /** Both folds over a single result: the written one zeroes the counts,
      the intended one returns the result itself. */
  lemma SingleResult(r: HighlightResult)
    ensures Aggregate([r]) == HighlightResult(r.ranges, 0, 0, 0, r.hasMore)
    ensures AggregateSummed([r]) == r
  {
    assert [r][..0] == [];
    assert [] + r.ranges == r.ranges;
  }
}

=== FILE: wrappers.dfy ===
/** The optional-value datatype used wherever the source returns `null` or
    `undefined` for "nothing". */
module Wrappers {

  datatype Option<+T> = None | Some(value: T)
}
